=== FILE: README.md ===
# net2 socket options and descriptor ownership, in Dafny

This project models two parts of the `net2` crate.

1. The extension traits of `src/ext.rs`. Every option accessor on `TcpStream`,
   `TcpListener`, `UdpSocket`, `TcpBuilder` and `UdpBuilder` is one or two
   `setsockopt`/`getsockopt` calls on a fixed (level, name) pair. The value
   passes through small conversion helpers: `int2bool`, `int2err`, the
   `ms2timeout`/`timeout2ms` pairs, `ms2dur`/`dur2ms`, `ip2in_addr`/`ip2in6_addr`
   and the `u32`/`c_int` casts. Also in this file are keepalive, `do_connect`
   and `set_nonblocking`.
2. The Unix `Socket` handle of `src/sys/unix/mod.rs`. It owns one file
   descriptor. The descriptor is either moved out (`into_fd`, which forgets the
   handle) or closed when the handle is dropped.

The operating system is the class `Kernel.Os`. It has a trace of every system
call issued, and an oracle that answers each call given the history before it.
Nothing is assumed about the oracle. In particular a get need not return what
an earlier set wrote.

Each operation has two parts:
- a pure step function (`Codec.GetOptStep`, `Facade.SetBoolStep`,
  `Keepalive.UnixKeepaliveMsStep`, `Connect.ConnectFold`, ...). It gives the
  calls appended to the trace and the result, and its contract says which
  calls are issued, in what order, and how the replies are decoded;
- a method with `modifies os` that issues those calls. It is proved to leave
  exactly the trace and result of its step function.

The round-trip lemmas (`Facade.BoolRoundTrip`, `Keepalive.UnixKeepaliveRoundTrip`,
...) carry an explicit hypothesis, `Kernel.ActsAsStore`. It says the kernel
reads back what was last written. That is a reference kernel for comparison,
not a promise the crate makes. `Kernel.StoreReplyActsAsStore` shows that such
a kernel exists.

The target platform is a parameter (`Platforms.Platform`) in place of
conditional compilation. Byte order is a parameter too (`CTypes.Endian`).
Constants taken from `libc` stay symbolic (`CTypes.LibcName`). Constants the
crate defines itself keep their numbers.

Files: `ints.dfy` (machine integers), `rust_std.dfy` (Rust standard library
values), `ctypes.dfy` (C structs and their layout), `platforms.dfy` (constant
tables), `kernel.dfy` (system-call trace), `convert.dfy` (conversion helpers),
`codec.dfy` (`setopt`/`getopt`), `facade.dfy` (option accessors), `keepalive.dfy`,
`connect.dfy` (`do_connect`), `sys_unix.dfy` (the Unix handle).

## Model

| member | source | states |
|---|---|---|
| `Convert.Int2Bool` | src/ext.rs:772-774 | false exactly when the `c_int` is 0 |
| `Convert.BoolAsCInt` | src/ext.rs:567-570 | `b as c_int` is 0 or 1 and `int2bool` reads it back as `b` |
| `Convert.Int2Err` | src/ext.rs:776-782 | `None` exactly when the code is 0, otherwise the raw OS error with that code |
| `Convert.U32AsCInt` | src/ext.rs:697-699 | `ttl as c_int` keeps the value modulo 2^32, and keeps it exactly below 2^31 |
| `Convert.CIntAsU32` | src/ext.rs:701-704 | `b as u32` keeps the value modulo 2^32 and is undone by `as c_int` |
| `Convert.CastRoundTrip` | src/ext.rs:697-704 | `u32 -> c_int -> u32` and `c_int -> u32 -> c_int` are both the identity |
| `Convert.UnixMs2Timeout` | src/ext.rs:727-737 | `None` is `{0, 0}`; `Some(d)` is `{d / 1000, d % 1000}`, so `tv_usec` holds milliseconds; reading it back gives `None` for 0 and `Some(d / 1000 * 1000)` otherwise |
| `Convert.UnixTimeout2Ms` | src/ext.rs:739-746 | `None` exactly for `{0, 0}`; in range, the `timeval` length in microseconds divided by 1000; always `tv_sec as u32 * 1000 + tv_usec as u32 / 1000` modulo 2^32 |
| `Convert.UnixTimeoutUnitMismatch` | src/ext.rs:727-746 | 1500 ms is written as 1 000 500 µs and read back as 1000 ms |
| `Convert.UnixMs2TimeoutMicros` | src/ext.rs:727-737 | corrected form: the `timeval` is exactly `d` ms long and reads back as `d` (0 as `None`) |
| `Convert.WinMs2Timeout` | src/ext.rs:748-751 | zero exactly for `None` or `Some(0)`; reads back unchanged except `Some(0)`, which reads as `None` |
| `Convert.WinTimeout2Ms` | src/ext.rs:753-760 | `None` exactly for 0, otherwise the value itself |
| `Convert.WinTimeoutEncodeDecode` | src/ext.rs:748-760 | every `DWORD` timeout survives a read and a write back |
| `Convert.Ms2Dur` | src/ext.rs:762-765 | the `Duration` is exactly `ms` milliseconds long, and `dur2ms` gives `ms` back |
| `Convert.Dur2Ms` | src/ext.rs:767-770 | in range, the whole milliseconds of the duration: sub-millisecond nanoseconds are truncated |
| `Convert.Hton32` | src/ext.rs:958-962 | the stored word's bytes in memory are the argument's bytes in network order |
| `Convert.Hton16` | src/ext.rs:969-976 | the same for a 16-bit word |
| `Convert.PackOctets` | src/ext.rs:957-962 | the packed word's big-endian bytes are the four octets in order |
| `Convert.Ip2InAddr` | src/ext.rs:956-964 | the `in_addr` in memory is the four octets in order, on either byte order |
| `Convert.WordsAgree` | src/ext.rs:966-980 | slots stored one by one in network order make the whole address network order |
| `Convert.Ip2In6Addr` | src/ext.rs:966-980 | slot `i` is `hton(segment i)` for all eight, and the `in6_addr` in memory is the segments in order, big-endian |
| `Platforms.Ipv6MulticastLoop` | src/ext.rs:32-36 | the crate's `IPV6_MULTICAST_LOOP` is defined on every platform but Android and other Unixes |
| `Platforms.Ipv6V6Only` | src/ext.rs:37-41 | the crate's `IPV6_V6ONLY` is defined on the same platforms |
| `Platforms.Ipv6NamesDistinct` | src/ext.rs:32-41 | where both are defined they differ: 26 and 19 on Linux, 27 and 11 elsewhere |
| `Platforms.FionbioRequest` | src/ext.rs:43-51 | the crate's own `FIONBIO` number on Unix (0x5421 on Linux and Android, 0x8004667e elsewhere), `libc`'s on Windows |
| `Platforms.Fioclex` | src/sys/unix/mod.rs:17-23 | the crate's own `FIOCLEX` number: 0x5451 on Linux and Android, 0x20006601 on the other Unix targets |
| `Platforms.KeepaliveOption` | src/ext.rs:557-564 | `KEEPALIVE_OPTION` exists exactly on Unix (`TCP_KEEPALIVE` on Apple, `TCP_KEEPIDLE` otherwise) |
| `Kernel.Cvt` | src/ext.rs:75-76 | a return of -1 is an error carrying the OS error code; any other return passes through |
| `Codec.SetOptStep` | src/ext.rs:71-79 | exactly one `setsockopt` with the payload and its exact size; the result is `Ok` exactly when the call did not return -1 |
| `Codec.GetOptStep` | src/ext.rs:81-90 | exactly one `getsockopt` into a zeroed buffer of exact size; an OS error when it fails, a panic when it returns another length, else the buffer as the kernel left it |
| `Codec.UnwrittenSlotIsZeroed` | src/ext.rs:81-90 | a successful full-length get that writes nothing returns the zeroed value |
| `Codec.SetOpt` | src/ext.rs:71-79 | the method issues exactly the call of `SetOptStep` and returns its result |
| `Codec.GetOpt` | src/ext.rs:81-90 | the method issues exactly the call of `GetOptStep` and returns its outcome |
| `Facade.BoolKey` | src/ext.rs:785-833 | each flag's (level, name) pair: `TCP_NODELAY` at `IPPROTO_TCP`, `SO_BROADCAST` and `SO_REUSEADDR` at `SOL_SOCKET`, `IP_MULTICAST_LOOP` at `IPPROTO_IP`, and the crate's `IPV6_V6ONLY` and `IPV6_MULTICAST_LOOP` numbers; the IPv6 flags exist exactly where the crate builds, at level `IPPROTO_IPV6` |
| `Facade.U32Key` | src/ext.rs:697-704 | `IP_TTL` for the TTL and `IP_MULTICAST_TTL` for the multicast TTL, both at `IPPROTO_IP` (as also at src/ext.rs:801-808) |
| `Facade.TimeoutKey` | src/ext.rs:657-675 | `SO_RCVTIMEO` for the read timeout and `SO_SNDTIMEO` for the write timeout, both at `SOL_SOCKET` |
| `Facade.TimeoutPayload` | src/ext.rs:727-751 | the platform's `ms2timeout`: the Unix `timeval` or the Windows `DWORD`, zero exactly for no timeout or 0 ms |
| `Facade.BoolKeysDistinct` | src/ext.rs:32-41 | no two flags share a (level, name) pair |
| `Facade.SetBoolStep` | src/ext.rs:567-570 | one `setsockopt` of a 4-byte 1 or 0 on the flag's pair; `Ok` exactly when it succeeded |
| `Facade.GetBoolStep` | src/ext.rs:571-574 | one 4-byte `getsockopt` on the flag's pair; fails as `getopt` fails, else true exactly when the kernel left a nonzero `c_int` |
| `Facade.SetU32Step` | src/ext.rs:697-699 | one 4-byte `setsockopt` of a `c_int` that converts back to the given `u32` |
| `Facade.GetU32Step` | src/ext.rs:701-704 | one 4-byte `getsockopt`; the `u32` returned has the bits of the `c_int` the kernel left |
| `Facade.SetTimeoutMsStep` | src/ext.rs:657-660 | one `setsockopt` of the platform's timeout type and size, carrying the platform's `ms2timeout(dur)` (the as-written Unix `timeval`, or the Windows `DWORD`); the value is zero exactly for no timeout or 0 ms |
| `Facade.TimeoutMsStep` | src/ext.rs:662-665 | one `getsockopt` of the platform's timeout type; the result is the platform's `timeout2ms` of the buffer the kernel left, `None` exactly when it is zero |
| `Facade.SetTimeoutStep` | src/ext.rs:677-680 | the nightly form sets the timeout of `dur2ms` of the duration |
| `Facade.TimeoutStep` | src/ext.rs:682-685 | the nightly form is the millisecond reading, each count as that long a `Duration` |
| `Facade.TakeErrorStep` | src/ext.rs:718-720 | one 4-byte get of `SO_ERROR`; `None` exactly when it reads 0, otherwise that OS error |
| `Facade.SetNonblockingStep` | src/ext.rs:939-954 | one `ioctl(FIONBIO)` on Unix or `ioctlsocket(FIONBIO)` on Windows with 1 or 0 |
| `Facade.MembershipV4Step` | src/ext.rs:835-862 | one 8-byte `IP_ADD_MEMBERSHIP`/`IP_DROP_MEMBERSHIP` whose `ip_mreq` holds the group and then the interface, each in network order |
| `Facade.MembershipV6Step` | src/ext.rs:844-871 | one 20-byte `IPV6_ADD_MEMBERSHIP`/`IPV6_DROP_MEMBERSHIP` with the group in network order and the interface index as given |
| `Facade.SetBool` | src/ext.rs:567-570 | issues exactly what `SetBoolStep` describes |
| `Facade.GetBool` | src/ext.rs:571-574 | issues exactly what `GetBoolStep` describes |
| `Facade.SetU32` | src/ext.rs:697-699 | issues exactly what `SetU32Step` describes |
| `Facade.GetU32` | src/ext.rs:701-704 | issues exactly what `GetU32Step` describes |
| `Facade.SetTimeoutMs` | src/ext.rs:657-660 | issues exactly what `SetTimeoutMsStep` describes |
| `Facade.TimeoutMs` | src/ext.rs:662-665 | issues exactly what `TimeoutMsStep` describes |
| `Facade.SetTimeout` | src/ext.rs:677-680 | issues exactly what `SetTimeoutStep` describes |
| `Facade.Timeout` | src/ext.rs:682-685 | issues exactly what `TimeoutStep` describes |
| `Facade.TakeError` | src/ext.rs:718-720 | issues exactly what `TakeErrorStep` describes |
| `Facade.SetNonblocking` | src/ext.rs:939-954 | issues exactly what `SetNonblockingStep` describes |
| `Facade.MembershipV4` | src/ext.rs:835-862 | issues exactly what `MembershipV4Step` describes |
| `Facade.MembershipV6` | src/ext.rs:844-871 | issues exactly what `MembershipV6Step` describes |
| `Facade.BoolRoundTrip` | src/ext.rs:567-574 | on a kernel that reads back what was written, a flag reads back as set |
| `Facade.U32RoundTrip` | src/ext.rs:697-704 | on such a kernel, every `u32` TTL reads back unchanged |
| `Facade.TimeoutMsRoundTrip` | src/ext.rs:657-665 | on such a kernel, Windows timeouts read back unchanged and Unix timeouts keep only their whole seconds; `None` and `Some(0)` both read back as `None` |
| `Facade.WinTimeoutRoundTrip` | src/ext.rs:677-685 | on such a kernel, a Windows `Duration` timeout whose `dur2ms` is non-zero reads back as `ms2dur(dur2ms(d))`: truncated to whole milliseconds while those fit in a `u32` |
| `Facade.UnixTimeoutRoundTripCorrected` | src/ext.rs:727-746 | with the corrected conversion, a Unix timeout would read back unchanged |
| `Keepalive.WinKeepaliveVals` | src/ext.rs:610-616 | `onoff` is 1 when a time is given and 0 otherwise; idle time and interval both equal the time, `INFINITE` when off; reading it back gives the time, or `None` for off or 0 |
| `Keepalive.WinKeepaliveRead` | src/ext.rs:648-654 | `None` exactly when off or the interval is 0, otherwise the interval |
| `Keepalive.UnixSetKeepaliveMsStep` | src/ext.rs:586-595 | first `SO_KEEPALIVE` to 1 or 0; the idle time is set only for `Some` and only after the first succeeded; no undo call; the result is the last call's |
| `Keepalive.UnixKeepaliveMsStep` | src/ext.rs:597-607 | first gets `SO_KEEPALIVE`; `None` with no second get when it reads 0; otherwise gets `KEEPALIVE_OPTION` and returns `Some` of it as `u32` |
| `Keepalive.WinSetKeepaliveMsStep` | src/ext.rs:609-628 | one `WSAIoctl(SIO_KEEPALIVE_VALS)` with the block as a 12-byte input and no output |
| `Keepalive.WinKeepaliveMsStep` | src/ext.rs:630-655 | one `WSAIoctl` with no input into a zeroed 12-byte block, with no length check; an OS error when it fails, else the block's reading |
| `Keepalive.SetKeepaliveStep` | src/ext.rs:576-579 | the nightly form sets the keepalive of `dur2ms` of the duration |
| `Keepalive.KeepaliveStep` | src/ext.rs:581-584 | the nightly form is the millisecond reading as durations |
| `Keepalive.UnixSetKeepaliveMs` | src/ext.rs:586-595 | issues exactly what `UnixSetKeepaliveMsStep` describes |
| `Keepalive.UnixKeepaliveMs` | src/ext.rs:597-607 | issues exactly what `UnixKeepaliveMsStep` describes |
| `Keepalive.WinSetKeepaliveMs` | src/ext.rs:609-628 | issues exactly what `WinSetKeepaliveMsStep` describes |
| `Keepalive.WinKeepaliveMs` | src/ext.rs:630-655 | issues exactly what `WinKeepaliveMsStep` describes |
| `Keepalive.SetKeepaliveMs` | src/ext.rs:586-628 | the platform's `set_keepalive_ms` |
| `Keepalive.SetKeepaliveMsStep` | src/ext.rs:586-628 | on every platform: one or two calls, the first a write; only one when switching off or on Windows; the result is `cvt` of the last call |
| `Keepalive.KeepaliveMsStep` | src/ext.rs:597-655 | on every platform: one or two calls and no write among them; on Windows exactly one and never a panic |
| `Keepalive.KeepaliveMs` | src/ext.rs:597-655 | the platform's `keepalive_ms` |
| `Keepalive.SetKeepalive` | src/ext.rs:576-579 | issues exactly what `SetKeepaliveStep` describes |
| `Keepalive.KeepaliveDuration` | src/ext.rs:581-584 | issues exactly what `KeepaliveStep` describes |
| `Keepalive.UnixKeepaliveRoundTrip` | src/ext.rs:586-607 | on a kernel that reads back what was written, the Unix idle time reads back as set, and off as off |
| `Keepalive.WinKeepaliveRoundTrip` | src/ext.rs:609-655 | on such a kernel, the Windows time reads back as set, except that 0 reads as off |
| `Keepalive.UnixKeepaliveUnitMismatch` | src/ext.rs:586-595 | a 5000 ms request hands the seconds-valued option 5000, an idle time of 5000 s |
| `Keepalive.SecsToMs` | src/ext.rs:597-607 | seconds as milliseconds, exact while the product fits in a `u32` |
| `Keepalive.UnixSetKeepaliveSecsStep` | src/ext.rs:586-595 | the documented setter: the same two calls on the same socket, level, option and size, with the idle time in whole seconds, so the kernel idles for the request less under one second |
| `Keepalive.UnixKeepaliveSecsStep` | src/ext.rs:597-607 | the documented getter: same calls and failures, the seconds read back as milliseconds |
| `Keepalive.UnixKeepaliveSecsRoundTrip` | src/ext.rs:586-607 | on a kernel that reads back what was written, the documented pair returns the request rounded down to a whole second, and off as off |
| `Connect.ConnectFold` | src/ext.rs:932-934 | at most one call per address, each a `connect` on the given socket (so `do_connect` never closes it), appended after the history; an `Ok` accumulator stays `Ok` |
| `Connect.FoldAfterSuccess` | src/ext.rs:932-934 | once an attempt succeeded, `or_else` issues no further connect |
| `Connect.FoldTriesInOrder` | src/ext.rs:926-937 | addresses are tried in order, each earlier attempt failed, nothing is tried after a success, the result is the last attempt's, and the empty list gives the starting error |
| `Connect.DoConnect` | src/ext.rs:926-937 | a resolution error is returned with no system call; otherwise the trace and result are the fold's from "no socket addresses resolved", and the borrowed handle is forgotten |
| `SysUnix.Next` | src/sys/unix/mod.rs:46-78 | only an owning handle can be forgotten or dropped; dropping closes, forgetting releases |
| `SysUnix.LifetimeEndsOnce` | src/sys/unix/mod.rs:46-78 | over any lifetime the descriptor is closed at most once and never both moved out and closed |
| `SysUnix.Socket.New` | src/sys/unix/mod.rs:36-42 | on `socket()` failure its OS error and nothing owned; otherwise `FIOCLEX` on the new descriptor, its result ignored, and a fresh handle owning that descriptor |
| `SysUnix.Socket.Raw` | src/sys/unix/mod.rs:44 | the owned descriptor, with nothing changed |
| `SysUnix.Socket.Forget` | src/sys/unix/mod.rs:48 | the handle ends released, with no system call |
| `SysUnix.Socket.IntoFd` | src/sys/unix/mod.rs:46-50 | the same descriptor, the handle released and never to close it |
| `SysUnix.Socket.IntoTcpListener` | src/sys/unix/mod.rs:52-54 | the descriptor passes to one new `TcpListener` |
| `SysUnix.Socket.IntoTcpStream` | src/sys/unix/mod.rs:56-58 | the descriptor passes to one new `TcpStream` |
| `SysUnix.Socket.IntoUdpSocket` | src/sys/unix/mod.rs:60-62 | the descriptor passes to one new `UdpSocket` |
| `SysUnix.Socket.FromInner` | src/sys/unix/mod.rs:65-70 | wraps the descriptor with no system call; the new handle owns it |
| `SysUnix.Socket.Drop` | src/sys/unix/mod.rs:72-78 | exactly one `close` of the owned descriptor, result discarded; the handle ends closed |

The accessors that several types share have identical bodies, and each is
modelled once. `SetBoolStep` covers `set_nodelay` (src/ext.rs:567-570),
`set_broadcast`, `set_multicast_loop_v4`, `set_multicast_loop_v6`, every
`set_only_v6`, and the builders' `only_v6` and `reuse_address`
(src/ext.rs:1025-1038, src/ext.rs:1066-1079). `SetU32Step` covers every
`set_ttl`, `set_multicast_ttl_v4` and the builders' `ttl`. `TakeErrorStep`
covers every `take_error`, the builders' included. A builder setter returns
`Ok(self)` where the accessor returns `Ok(())`. The model does not tell the
two apart.

## Left out

- The system calls themselves (`setsockopt`, `getsockopt`, `ioctl`, `ioctlsocket`, `WSAIoctl`, `socket`, `close`, `connect`). They are abstract: each appends to a trace and gets an oracle's reply.
- `::cvt`, `::cvt_win` and `::hton` are defined in `src/lib.rs`, which is not part of this model. `cvt`/`cvt_win` are modelled as "-1 is failure with the OS error code". `hton` is modelled as conversion to network byte order for a given `Endian`.
- `socket::Socket::connect` is defined in `src/socket.rs`, which is not part of this model. It is one `connect` call through `cvt`.
- `ToSocketAddrs::to_socket_addrs` is an input to `Connect.DoConnect`: the resolved list or the resolution error.
- The `socket::Socket` wrapper around the handle in `do_connect` (src/ext.rs:930-931) is folded into the one `SysUnix.Socket` handle. Forgetting the outer wrapper forgets the inner one.
- The Windows `sys` handle and `mod impls` are not part of this model. So `do_connect` is modelled with the Unix handle only.
- `from_raw_fd` on the standard library types is represented by the `SysUnix.StdSocket` value, which records the new owner's kind and descriptor.
- The `AsSock` trait plumbing and `cfg_if!` selection (src/ext.rs:543-555) are replaced by a `Platform` parameter. Which type has which accessor is not modelled.
- Sizes of the C types are those of a 64-bit Unix target (`timeval` is 16 bytes). The Windows `DWORD` and `tcp_keepalive` sizes are 4 and 12.
- On Android and on Unixes not in the constant tables, `IPV6_V6ONLY` and `IPV6_MULTICAST_LOOP` are undefined and the crate does not build. The accessors needing them require the name to exist (`Facade.BoolKey(p, o).Some?`).
- Convert.UnixTimeout2Ms: the `u32` multiply and add wrap as in a release build. A debug build panics on that overflow instead, and this is not modelled.
- Convert.Dur2Ms: the same wrap-around is used for `as_secs() as u32 * 1000`. The debug-build panic is not modelled.
- Convert.Dur2Ms: the truncation bound is stated only for durations whose milliseconds fit in a `u32`.
- Facade.TimeoutMsRoundTrip, Facade.BoolRoundTrip, Facade.U32RoundTrip, Facade.WinTimeoutRoundTrip, Keepalive.UnixKeepaliveRoundTrip, Keepalive.WinKeepaliveRoundTrip: these hold only on a kernel that reads back what was written (`Kernel.ActsAsStore`). The crate itself promises nothing about what a get returns.
- Keepalive.UnixKeepaliveUnitMismatch: that `TCP_KEEPIDLE` and `TCP_KEEPALIVE` count seconds is a fact about the kernel, written as `Keepalive.KernelIdleMillis`, not something the crate states.
- A `getsockopt` or `WSAIoctl` that writes a value of another C type than the buffer's is not modelled: the kernel can only fill a buffer with a value of the buffer's own type.

## Findings

| source | as written | input that shows it | evidently intended | confidence | as-written member | corrected member |
|---|---|---|---|---|---|---|
| src/ext.rs:727-746 | Unix `ms2timeout` stores the leftover milliseconds `d % 1000` in `tv_usec`, which counts microseconds, and `timeout2ms` reads `tv_usec / 1000` | `set_read_timeout_ms(Some(1500))` writes a 1.0005 s `timeval`, and `read_timeout_ms` then returns `Some(1000)` | `tv_usec = (d % 1000) * 1000`, so the timeout is `d` ms and reads back as `d` | not executed | `Convert.UnixMs2Timeout` (shown by `Convert.UnixTimeoutUnitMismatch`, `Facade.TimeoutMsRoundTrip`) | `Convert.UnixMs2TimeoutMicros` (proved by `Facade.UnixTimeoutRoundTripCorrected`) |
| src/ext.rs:586-607 | Unix `set_keepalive_ms` passes the milliseconds unchanged to `TCP_KEEPIDLE`/`TCP_KEEPALIVE`, which count seconds, and `keepalive_ms` returns the seconds read as milliseconds; the documentation at src/ext.rs:118-123 promises milliseconds, rounded to whole seconds where the platform counts seconds | `set_keepalive_ms(Some(5000))` sets an idle time of 5000 s instead of 5 s | the idle time passed as `dur / 1000` and read back as `secs * 1000` | not executed | `Keepalive.UnixSetKeepaliveMsStep` (shown by `Keepalive.UnixKeepaliveUnitMismatch`) | `Keepalive.UnixSetKeepaliveSecsStep` and `Keepalive.UnixKeepaliveSecsStep` (proved by `Keepalive.UnixKeepaliveSecsRoundTrip`) |

The facade and the keepalive methods keep the as-written behaviour. The trace
must record the values the crate actually passes to `setsockopt`.
`Facade.UnixTimeoutRoundTripCorrected` and `Keepalive.UnixKeepaliveSecsRoundTrip`
show the corrected definitions used in the same setter/getter pairs.

=== FILE: codec.dfy ===
/** The option codec of src/ext.rs:71-90: `setopt` hands a payload of exact
    size to `setsockopt`; `getopt` reads into a zeroed buffer of exact size
    and treats a different returned length as a failed assertion. */
module Codec {
  import opened Ints
  import opened RustStd
  import opened CTypes
  import opened Kernel

  /** The calls an operation leaves in the trace, and what it returns. */
  datatype Step<T> = Step(trace: seq<Call>, out: T)

  function SetOptCall(sock: RawSocket, level: Const, name: Const, payload: Payload): Call {
    SetSockOpt(sock, level, name, payload, SizeOf(payload.ShapeOf()))
  }

  function GetOptCall(sock: RawSocket, level: Const, name: Const, shape: Shape): Call {
    GetSockOpt(sock, level, name, shape, SizeOf(shape))
  }

  /** `cvt(..)` followed by `Ok(())`. */
  function Unit(r: IoResult<int>): (u: IoResult<()>)
    ensures u.Ok? <==> r.Ok?
    ensures r.Err? ==> u.error == r.error
  {
    if r.Err? then Err(r.error) else Ok(())
  }

  /** `r` is what `cvt` followed by `Ok(())` makes of the reply `rep`. */
  predicate ReportsCvt(r: IoResult<()>, rep: Reply) {
    && (r.Ok? <==> rep.ret != -1)
    && (r.Err? ==> r.error == OsError(rep.errno))
  }

  /** A getter's outcome `o` fails as `getopt` does on reply `rep` for a
      buffer of `size` bytes: an OS error exactly when the call failed, a
      panic exactly when it succeeded with another length. */
  predicate FailsAs<T>(o: Outcome<T>, rep: Reply, size: uint32) {
    && (o.Returned? && o.result.Err? <==> rep.ret == -1)
    && (o.Returned? && o.result.Err? ==> o.result.error == OsError(rep.errno))
    && (o.Panicked? <==> rep.ret != -1 && rep.len != size)
  }

  /** The `c_int` a zeroed buffer holds after the reply `rep`. */
  function WrittenCInt(rep: Reply): CInt {
    AsCInt(Overlay(Zeroed(CIntShape), rep.written))
  }

  /** What `setopt` does after history `h`: exactly one `setsockopt` with the
      payload and its exact size, failing with the call's OS error when it fails. */
  function SetOptStep(oracle: Oracle, h: seq<Call>, sock: RawSocket, level: Const, name: Const, payload: Payload)
    : (s: Step<IoResult<()>>)
    ensures s.trace == h + [SetSockOpt(sock, level, name, payload, SizeOf(payload.ShapeOf()))]
    ensures ReportsCvt(s.out, oracle(h, s.trace[|h|]))
  {
    var c := SetOptCall(sock, level, name, payload);
    Step(h + [c], Unit(Cvt(oracle(h, c))))
  }

  /** What `getopt::<T>` does after history `h`: exactly one `getsockopt` into
      a zeroed buffer of the exact size of `T`; a failed call is an OS error, a
      returned length other than that size a panic, and otherwise the result
      is the buffer, of type `T`, as the kernel left it. */
  function GetOptStep(oracle: Oracle, h: seq<Call>, sock: RawSocket, level: Const, name: Const, shape: Shape)
    : (s: Step<Outcome<Payload>>)
    ensures s.trace == h + [GetSockOpt(sock, level, name, shape, SizeOf(shape))]
    ensures FailsAs(s.out, oracle(h, s.trace[|h|]), SizeOf(shape))
    ensures s.out.Returned? && s.out.result.Ok? ==>
      s.out.result.value.ShapeOf() == shape && s.out.result.value == Overlay(Zeroed(shape), oracle(h, s.trace[|h|]).written)
  {
    var c := GetOptCall(sock, level, name, shape);
    var rep := oracle(h, c);
    var slot := Overlay(Zeroed(shape), rep.written);
    Step(h + [c],
         if Cvt(rep).Err? then Returned(Err(Cvt(rep).error))
         else if rep.len != SizeOf(shape) then Panicked
         else Returned(Ok(slot)))
  }

  /** A getter whose call succeeds at full length but writes nothing reads the zeroed buffer. */
  lemma UnwrittenSlotIsZeroed(oracle: Oracle, h: seq<Call>, sock: RawSocket, level: Const, name: Const, shape: Shape)
    requires var rep := oracle(h, GetOptCall(sock, level, name, shape));
      rep.ret != -1 && rep.len == SizeOf(shape) && rep.written.None?
    ensures GetOptStep(oracle, h, sock, level, name, shape).out == Returned(Ok(Zeroed(shape)))
  {
  }

  /** `setopt` */
  method SetOpt(os: Os, sock: RawSocket, level: Const, name: Const, payload: Payload) returns (r: IoResult<()>)
    modifies os
    ensures Step(os.trace, r) == SetOptStep(os.oracle, old(os.trace), sock, level, name, payload)
  {
    var rep := os.Issue(SetSockOpt(sock, level, name, payload, SizeOf(payload.ShapeOf())));
    var ret := Cvt(rep);
    if ret.Err? {
      return Err(ret.error);
    }
    return Ok(());
  }

  /** `getopt` */
  method GetOpt(os: Os, sock: RawSocket, level: Const, name: Const, shape: Shape) returns (r: Outcome<Payload>)
    modifies os
    ensures Step(os.trace, r) == GetOptStep(os.oracle, old(os.trace), sock, level, name, shape)
  {
    var slot := Zeroed(shape);
    var len := SizeOf(shape);
    var rep := os.Issue(GetSockOpt(sock, level, name, shape, len));
    slot, len := Overlay(slot, rep.written), rep.len;
    var ret := Cvt(rep);
    if ret.Err? {
      return Returned(Err(ret.error));
    }
    if len != SizeOf(shape) {
      return Panicked;
    }
    return Returned(Ok(slot));
  }
}

=== FILE: connect.dfy ===
/** `do_connect` (src/ext.rs:926-937): the resolved addresses are folded left
    to right with `or_else`, so each is tried only while every earlier attempt
    failed; the socket is borrowed through a handle that is then forgotten. */
module Connect {
  import opened RustStd
  import opened CTypes
  import opened Kernel
  import opened Codec
  import opened SysUnix

  /** The error the fold starts from, returned when nothing was resolved. */
  const NoAddresses: IoError := Custom(Other, "no socket addresses resolved")

  /** `addrs.fold(acc, |prev, addr| prev.or_else(|_| sock.connect(&addr)))`
      after history `h`; one connect is one `connect` call, failing with its
      OS error when it returns -1. */
  function ConnectFold(oracle: Oracle, h: seq<Call>, sock: RawSocket, addrs: seq<SocketAddr>, acc: IoResult<()>)
    : (s: Step<IoResult<()>>)
    decreases |addrs|
    ensures |h| <= |s.trace| <= |h| + |addrs| && s.trace[..|h|] == h
    ensures forall i :: |h| <= i < |s.trace| ==> s.trace[i].Connect? && s.trace[i].sock == sock
    ensures acc.Ok? ==> s.out.Ok?
  {
    if addrs == [] then Step(h, acc)
    else if acc.Ok? then ConnectFold(oracle, h, sock, addrs[1..], acc)
    else
      var c := Connect(sock, addrs[0]);
      ConnectFold(oracle, h + [c], sock, addrs[1..], Unit(Cvt(oracle(h, c))))
  }

  /** Once one attempt succeeded, the rest of the fold issues nothing. */
  lemma {:induction false} FoldAfterSuccess(oracle: Oracle, h: seq<Call>, sock: RawSocket, addrs: seq<SocketAddr>)
    ensures ConnectFold(oracle, h, sock, addrs, Ok(())) == Step(h, Ok(()))
    decreases |addrs|
  {
    if addrs != [] {
      FoldAfterSuccess(oracle, h, sock, addrs[1..]);
    }
  }

  /** The call at index `i` of trace `t` failed. */
  predicate Failed(oracle: Oracle, t: seq<Call>, i: int)
    requires 0 <= i < |t|
  {
    oracle(t[..i], t[i]).ret == -1
  }

  /** From a failed accumulator the fold connects to the addresses in order,
      stops after the first success and only then, returns the last attempt's
      result, and returns the accumulator itself when there is no address. */
  lemma {:induction false} FoldTriesInOrder(oracle: Oracle, h: seq<Call>, sock: RawSocket, addrs: seq<SocketAddr>, err: IoError)
    ensures var s := ConnectFold(oracle, h, sock, addrs, Err(err));
      && |h| <= |s.trace| <= |h| + |addrs| && s.trace[..|h|] == h
      && (forall i :: |h| <= i < |s.trace| ==> s.trace[i] == Connect(sock, addrs[i - |h|]))
      && (forall i :: |h| <= i < |s.trace| - 1 ==> Failed(oracle, s.trace, i))
      && (|s.trace| == |h| <==> addrs == [])
      && (|s.trace| == |h| ==> s.out == Err(err))
      && (|s.trace| > |h| ==> ReportsCvt(s.out, oracle(s.trace[..|s.trace| - 1], s.trace[|s.trace| - 1])))
      && (|s.trace| < |h| + |addrs| ==> s.out == Ok(()))
    decreases |addrs|
  {
    if addrs != [] {
      var c := Connect(sock, addrs[0]);
      var r := Unit(Cvt(oracle(h, c)));
      var h1 := h + [c];
      var s := ConnectFold(oracle, h, sock, addrs, Err(err));
      assert s == ConnectFold(oracle, h1, sock, addrs[1..], r);
      if r.Ok? {
        FoldAfterSuccess(oracle, h1, sock, addrs[1..]);
        assert s.trace == h1;
        assert s.trace[..|h|] == h;
      } else {
        FoldTriesInOrder(oracle, h1, sock, addrs[1..], r.error);
        assert s.trace[..|h1|] == h1;
        assert s.trace[..|h|] == h1[..|h|] == h;
        assert s.trace[|h|] == c;
        forall i | |h| <= i < |s.trace|
          ensures s.trace[i] == Connect(sock, addrs[i - |h|])
        {
          if i > |h| {
            assert s.trace[i] == Connect(sock, addrs[1..][i - |h1|]);
          }
        }
        assert Failed(oracle, s.trace, |h|);
      }
    }
  }

  /** `do_connect`: a failed resolution is returned before any system call;
      otherwise the fold above runs from the "no socket addresses resolved"
      error, on a handle that is forgotten afterwards, so the caller's
      descriptor is never closed. */
  method DoConnect(os: Os, sock: CInt, resolved: IoResult<seq<SocketAddr>>) returns (r: IoResult<()>)
    modifies os
    ensures resolved.Err? ==> r == Err(resolved.error) && os.trace == old(os.trace)
    ensures resolved.Ok? ==>
      Step(os.trace, r) == ConnectFold(os.oracle, old(os.trace), sock, resolved.value, Err(NoAddresses))
  {
    var err: IoResult<()> := Err(NoAddresses);
    if resolved.Err? {
      return Err(resolved.error);
    }
    var addrs := resolved.value;
    var handle := new Socket.FromInner(os, sock);
    var ret := err;
    var i := 0;
    while i < |addrs|
      invariant 0 <= i <= |addrs|
      invariant ConnectFold(os.oracle, os.trace, sock, addrs[i..], ret) ==
                ConnectFold(os.oracle, old(os.trace), sock, addrs, err)
      invariant handle.Valid() && handle.state == Owning && handle.fd == sock
    {
      assert addrs[i..][1..] == addrs[i + 1..];
      if ret.Err? {
        var rep := os.Issue(Connect(handle.fd, addrs[i]));
        ret := Unit(Cvt(rep));
      }
      i := i + 1;
    }
    handle.Forget();
    r := ret;
  }
}

=== FILE: convert.dfy ===
/** The pure conversion helpers of src/ext.rs: integer to boolean and to
    optional error, the timeout and duration conversions of both platforms,
    the `u32`/`c_int` casts, and the network-order address packing. */
module Convert {
  import opened Ints
  import opened RustStd
  import opened CTypes

  /** `int2bool`: any non-zero option value reads as true. */
  function Int2Bool(n: CInt): (b: bool)
    ensures b <==> n != 0
  {
    if n == 0 then false else true
  }

  /** `b as c_int`, the payload of every boolean setter. */
  function BoolAsCInt(b: bool): (n: CInt)
    ensures 0 <= n <= 1
    ensures Int2Bool(n) == b
  {
    if b then 1 else 0
  }

  /** `int2err`: zero is "no pending error", anything else is that raw OS code. */
  function Int2Err(n: CInt): (r: Option<IoError>)
    ensures r.None? <==> n == 0
    ensures r.Some? ==> r.value == OsError(n)
  {
    if n == 0 then None else Some(OsError(n))
  }

  /** `x as c_int` for a `u32`: the same 32 bits read as two's complement. */
  function U32AsCInt(x: uint32): (r: CInt)
    ensures (x - r) % TWO_32 == 0
    ensures x < 0x8000_0000 ==> r == x
  {
    if x < 0x8000_0000 then x else x - TWO_32
  }

  /** `b as u32` for a `c_int`: the same 32 bits read as unsigned. */
  function CIntAsU32(n: CInt): (r: uint32)
    ensures (n - r) % TWO_32 == 0
    ensures U32AsCInt(r) == n
  {
    TruncU32(n)
  }

  /** The TTL casts `ttl as c_int` and `b as u32` are inverse to each other. */
  lemma CastRoundTrip(x: uint32, n: CInt)
    ensures CIntAsU32(U32AsCInt(x)) == x
    ensures U32AsCInt(CIntAsU32(n)) == n
  {
  }

  /** Unix `ms2timeout`: whole seconds into `tv_sec` and the leftover
      MILLIseconds into `tv_usec`, which the kernel reads as microseconds. */
  function UnixMs2Timeout(dur: Option<uint32>): (tv: Timeval)
    ensures dur.None? ==> tv == Timeval(0, 0)
    ensures dur.Some? ==> 0 <= tv.tv_usec < 1000 && tv.tv_sec * 1000 + tv.tv_usec == dur.value
    ensures dur.Some? ==> TimevalMicros(tv) == dur.value / 1000 * 1_000_000 + dur.value % 1000
    ensures UnixTimeout2Ms(tv) == if dur.None? || dur.value == 0 then None else Some(dur.value / 1000 * 1000)
  {
    match dur
    case Some(d) => Timeval(d / 1000, d % 1000)
    case None => Timeval(0, 0)
  }

  /** Unix `timeout2ms`: all-zero is "no timeout"; otherwise the timeval in
      whole milliseconds, in wrapping `u32` arithmetic. */
  function UnixTimeout2Ms(tv: Timeval): (r: Option<uint32>)
    ensures r.None? <==> tv.tv_sec == 0 && tv.tv_usec == 0
    ensures r.Some? && 0 <= tv.tv_sec && 0 <= tv.tv_usec < TWO_32 && tv.tv_sec * 1000 + tv.tv_usec / 1000 < TWO_32
            ==> r.value == TimevalMicros(tv) / 1000
    ensures r.Some? ==> (r.value - (TruncU32(tv.tv_sec) * 1000 + TruncU32(tv.tv_usec) / 1000)) % TWO_32 == 0
  {
    if tv.tv_sec == 0 && tv.tv_usec == 0 then None
    else Some(WrappingAddU32(WrappingMulU32(TruncU32(tv.tv_sec), 1000), TruncU32(tv.tv_usec) / 1000))
  }

  /** The conversion `ms2timeout` evidently means: leftover milliseconds
      scaled to microseconds, so that the timeval denotes exactly the request. */
  function UnixMs2TimeoutMicros(dur: Option<uint32>): (tv: Timeval)
    ensures dur.None? ==> tv == Timeval(0, 0)
    ensures dur.Some? ==> 0 <= tv.tv_usec < 1_000_000 && TimevalMicros(tv) == dur.value * 1000
    ensures UnixTimeout2Ms(tv) == if dur.None? || dur.value == 0 then None else dur
  {
    match dur
    case Some(d) => Timeval(d / 1000, d % 1000 * 1000)
    case None => Timeval(0, 0)
  }

  /** A request of 1500 ms: the kernel is handed 1.0005 s, and reading it back gives 1000 ms. */
  lemma UnixTimeoutUnitMismatch()
    ensures TimevalMicros(UnixMs2Timeout(Some(1500))) == 1_000_500
    ensures UnixTimeout2Ms(UnixMs2Timeout(Some(1500))) == Some(1000)
    ensures TimevalMicros(UnixMs2TimeoutMicros(Some(1500))) == 1_500_000
  {
    assert UnixMs2Timeout(Some(1500)) == Timeval(1, 500);
    assert UnixMs2TimeoutMicros(Some(1500)) == Timeval(1, 500_000);
  }

  /** Windows `ms2timeout`: the millisecond count itself, zero for "no timeout". */
  function WinMs2Timeout(dur: Option<uint32>): (t: uint32)
    ensures t == 0 <==> dur.None? || dur.value == 0
    ensures WinTimeout2Ms(t) == if dur == Some(0) then None else dur
  {
    dur.UnwrapOr(0)
  }

  /** Windows `timeout2ms`: zero is "no timeout". */
  function WinTimeout2Ms(t: uint32): (r: Option<uint32>)
    ensures r.None? <==> t == 0
    ensures r.Some? ==> r.value == t
  {
    if t == 0 then None else Some(t)
  }

  /** Every native Windows timeout survives being read and written back. */
  lemma WinTimeoutEncodeDecode(t: uint32)
    ensures WinMs2Timeout(WinTimeout2Ms(t)) == t
  {
  }

  /** `ms2dur`: integer seconds and nanoseconds, exactly `ms` milliseconds long. */
  function Ms2Dur(ms: uint32): (d: Duration)
    ensures DurationNanos(d) == ms * NANOS_PER_MILLI
    ensures Dur2Ms(d) == ms
  {
    Duration(ms / 1000, ms % 1000 * NANOS_PER_MILLI)
  }

  /** `dur2ms`: the duration in whole milliseconds, sub-millisecond nanoseconds
      dropped, in wrapping `u32` arithmetic. */
  function Dur2Ms(d: Duration): (ms: uint32)
    ensures d.secs * 1000 + d.nanos / NANOS_PER_MILLI < TWO_32 ==>
              ms * NANOS_PER_MILLI <= DurationNanos(d) < (ms + 1) * NANOS_PER_MILLI
  {
    WrappingAddU32(WrappingMulU32(TruncU32(d.secs), 1000), d.nanos / NANOS_PER_MILLI)
  }

  /** `::hton` on a 32-bit word: the value whose bytes in memory are `x`'s in network order. */
  function Hton32(e: Endian, x: bv32): (r: bv32)
    ensures MemoryBytes32(e, r) == BigEndianBytes32(x)
  {
    if e == Big then x
    else (x << 24) | ((x << 8) & 0x00FF_0000) | ((x >> 8) & 0x0000_FF00) | (x >> 24)
  }

  /** `::hton` on a 16-bit word. */
  function Hton16(e: Endian, x: bv16): (r: bv16)
    ensures MemoryBytes16(e, r) == BigEndianBytes16(x)
  {
    if e == Big then x else (x << 8) | (x >> 8)
  }

  /** The word `ip2in_addr` builds before `hton`: octet 0 in the top byte. */
  function PackOctets(ip: Ipv4Addr): (x: bv32)
    ensures BigEndianBytes32(x) == ip.Octets()
  {
    ((ip.a as bv32) << 24) | ((ip.b as bv32) << 16) | ((ip.c as bv32) << 8) | ((ip.d as bv32) << 0)
  }

  /** `ip2in_addr`: the stored `s_addr` holds the four octets in order. */
  function Ip2InAddr(e: Endian, ip: Ipv4Addr): (a: InAddr)
    ensures MemoryBytes32(e, a.s_addr) == ip.Octets()
  {
    InAddr(Hton32(e, PackOctets(ip)))
  }

  /** The bytes of a sequence of 16-bit words as the target stores them. */
  function WordsInMemory(e: Endian, s: seq<bv16>): (b: seq<bv8>)
    ensures |b| == 2 * |s|
  {
    if s == [] then [] else MemoryBytes16(e, s[0]) + WordsInMemory(e, s[1..])
  }

  /** The bytes of a sequence of 16-bit words in network order. */
  function WordsInNetworkOrder(s: seq<bv16>): (b: seq<bv8>)
    ensures |b| == 2 * |s|
  {
    if s == [] then [] else BigEndianBytes16(s[0]) + WordsInNetworkOrder(s[1..])
  }

  /** Words that each store as the network bytes of their counterparts store,
      all together, as the network bytes of the whole sequence. */
  lemma {:induction false} WordsAgree(e: Endian, stored: seq<bv16>, words: seq<bv16>)
    requires |stored| == |words|
    requires forall i :: 0 <= i < |stored| ==> MemoryBytes16(e, stored[i]) == BigEndianBytes16(words[i])
    ensures WordsInMemory(e, stored) == WordsInNetworkOrder(words)
  {
    if stored != [] {
      assert MemoryBytes16(e, stored[0]) == BigEndianBytes16(words[0]);
      WordsAgree(e, stored[1..], words[1..]);
    }
  }

  /** `hton` applied slot by slot. */
  function HtonWords(e: Endian, s: seq<bv16>): (r: seq<bv16>)
    ensures |r| == |s|
    ensures forall i :: 0 <= i < |s| ==> r[i] == Hton16(e, s[i])
  {
    if s == [] then [] else [Hton16(e, s[0])] + HtonWords(e, s[1..])
  }

  /** `ip2in6_addr`: slot i is `hton(segment i)`, so the stored address is the
      sixteen network-order bytes of the segments, in order. */
  function Ip2In6Addr(e: Endian, ip: Ipv6Addr): (a: In6Addr)
    ensures forall i :: 0 <= i < 8 ==> a.s6_addr[i] == Hton16(e, ip.segments[i])
    ensures WordsInMemory(e, a.s6_addr) == WordsInNetworkOrder(ip.segments)
  {
    var slots := HtonWords(e, ip.segments);
    forall i | 0 <= i < 8
      ensures MemoryBytes16(e, slots[i]) == BigEndianBytes16(ip.segments[i])
    {
      assert slots[i] == Hton16(e, ip.segments[i]);
    }
    WordsAgree(e, slots, ip.segments);
    In6Addr(slots)
  }
}

=== FILE: ctypes.dfy ===
/** The C-side vocabulary of the option calls: the payload structs handed to
    `setsockopt`/`getsockopt`/`WSAIoctl`, their sizes and memory layout, and
    the option identifiers. */
module CTypes {
  import opened Ints
  import opened RustStd

  /** `libc::c_int` */
  type CInt = int32

  /** `libc::timeval`: seconds plus microseconds (time_t and suseconds_t are 64-bit here). */
  datatype Timeval = Timeval(tv_sec: int64, tv_usec: int64)

  /** The length of time a `timeval` denotes, in microseconds. */
  function TimevalMicros(tv: Timeval): int {
    tv.tv_sec * 1_000_000 + tv.tv_usec
  }

  /** `libc::in_addr`: the IPv4 address as one 32-bit word. */
  datatype InAddr = InAddr(s_addr: bv32)

  /** `libc::in6_addr`: the IPv6 address as eight 16-bit slots. */
  datatype In6Addr = In6Addr(s6_addr: Words8)

  /** The Windows `tcp_keepalive` control block (`c_ulong` is 32 bits on Windows). */
  datatype TcpKeepaliveVals = TcpKeepaliveVals(onoff: uint32, keepalivetime: uint32, keepaliveinterval: uint32)

  /** The C type of an option buffer. */
  datatype Shape = CIntShape | TimevalShape | DwordShape | IpMreqShape | Ip6MreqShape | TcpKeepaliveShape

  /** A value of one of those C types. */
  datatype Payload =
    | CIntValue(i: CInt)
    | TimevalValue(tv: Timeval)
    | DwordValue(dword: uint32)
    | IpMreq(imr_multiaddr: InAddr, imr_interface: InAddr)
    | Ip6Mreq(ipv6mr_multiaddr: In6Addr, ipv6mr_interface: uint32)
    | KeepaliveValue(ka: TcpKeepaliveVals)
  {
    function ShapeOf(): Shape {
      match this
      case CIntValue(_) => CIntShape
      case TimevalValue(_) => TimevalShape
      case DwordValue(_) => DwordShape
      case IpMreq(_, _) => IpMreqShape
      case Ip6Mreq(_, _) => Ip6MreqShape
      case KeepaliveValue(_) => TcpKeepaliveShape
    }
  }

  /** `mem::size_of::<T>()` on a 64-bit target. */
  function SizeOf(s: Shape): uint32 {
    match s
    case CIntShape => 4
    case TimevalShape => 16
    case DwordShape => 4
    case IpMreqShape => 8
    case Ip6MreqShape => 20
    case TcpKeepaliveShape => 12
  }

  /** `mem::zeroed::<T>()` */
  function Zeroed(s: Shape): (p: Payload)
    ensures p.ShapeOf() == s
  {
    match s
    case CIntShape => CIntValue(0)
    case TimevalShape => TimevalValue(Timeval(0, 0))
    case DwordShape => DwordValue(0)
    case IpMreqShape => IpMreq(InAddr(0), InAddr(0))
    case Ip6MreqShape => Ip6Mreq(In6Addr([0, 0, 0, 0, 0, 0, 0, 0]), 0)
    case TcpKeepaliveShape => KeepaliveValue(TcpKeepaliveVals(0, 0, 0))
  }

  /** The buffer `slot` after the kernel wrote `written` into it: the kernel can
      only store a value of the buffer's own C type, and leaves it alone otherwise. */
  function Overlay(slot: Payload, written: Option<Payload>): (p: Payload)
    ensures p.ShapeOf() == slot.ShapeOf()
  {
    if written.Some? && written.value.ShapeOf() == slot.ShapeOf() then written.value else slot
  }

  /** The fields of a buffer of a known C type. */
  function AsCInt(p: Payload): CInt {
    if p.CIntValue? then p.i else 0
  }

  function AsTimeval(p: Payload): Timeval {
    if p.TimevalValue? then p.tv else Timeval(0, 0)
  }

  function AsDword(p: Payload): uint32 {
    if p.DwordValue? then p.dword else 0
  }

  function AsKeepalive(p: Payload): TcpKeepaliveVals {
    if p.KeepaliveValue? then p.ka else TcpKeepaliveVals(0, 0, 0)
  }

  /** The byte order of the target CPU. */
  datatype Endian = Little | Big

  /** The four bytes of a 32-bit word, most significant first (network order). */
  function BigEndianBytes32(x: bv32): seq<bv8> {
    [(x >> 24) as bv8, ((x >> 16) & 0xFF) as bv8, ((x >> 8) & 0xFF) as bv8, (x & 0xFF) as bv8]
  }

  /** The two bytes of a 16-bit word, most significant first (network order). */
  function BigEndianBytes16(x: bv16): seq<bv8> {
    [(x >> 8) as bv8, (x & 0xFF) as bv8]
  }

  /** The bytes of a 32-bit word as the target stores them, at increasing addresses. */
  function MemoryBytes32(e: Endian, x: bv32): (b: seq<bv8>)
    ensures |b| == 4
  {
    if e == Big then BigEndianBytes32(x)
    else [(x & 0xFF) as bv8, ((x >> 8) & 0xFF) as bv8, ((x >> 16) & 0xFF) as bv8, (x >> 24) as bv8]
  }

  /** The bytes of a 16-bit word as the target stores them. */
  function MemoryBytes16(e: Endian, x: bv16): (b: seq<bv8>)
    ensures |b| == 2
  {
    if e == Big then BigEndianBytes16(x) else [(x & 0xFF) as bv8, (x >> 8) as bv8]
  }

  /** The names the source takes from `libc`; their numbers are the platform headers'. */
  datatype LibcName =
    | SolSocket | IpprotoTcp | IpprotoIp | IpprotoIpv6
    | SoKeepalive | SoRcvtimeo | SoSndtimeo | SoError | SoBroadcast | SoReuseaddr
    | TcpNodelay | TcpKeepalive | TcpKeepidle
    | IpTtl | IpMulticastLoop | IpMulticastTtl | IpAddMembership | IpDropMembership
    | Ipv6AddMembership | Ipv6DropMembership
    | Fionbio

  /** An option level, option name or control code: a `libc` name, or a number
      the crate defines itself. */
  datatype Const = Libc(name: LibcName) | Crate(value: int)
}

=== FILE: facade.dfy ===
/** The option facade of src/ext.rs: every extension method of `TcpStream`,
    `TcpListener`, `UdpSocket`, `TcpBuilder` and `UdpBuilder` that reads or
    writes a socket option is one `setopt` or `getopt` on a fixed (level,
    name) pair with a fixed value conversion. A body that several of those
    types share is written out identically in each, and is modelled once here. */
module Facade {
  import opened Ints
  import opened RustStd
  import opened CTypes
  import opened Kernel
  import opened Platforms
  import opened Convert
  import opened Codec

  /** The (level, name) pair an option is addressed by. */
  datatype Key = Key(level: Const, name: Const)

  /** The options passed as a `c_int` 0 or 1 and read back through `int2bool`. */
  datatype BoolOption = Nodelay | OnlyV6 | Broadcast | MulticastLoopV4 | MulticastLoopV6 | ReuseAddress {
    /** `SO_REUSEADDR` is only ever set, by the builders; every other flag has a getter. */
    predicate HasGetter() {
      this != ReuseAddress
    }
  }

  /** The options passed as a `u32` cast to `c_int`. */
  datatype U32Option = Ttl | MulticastTtlV4

  /** The two timeout options. */
  datatype TimeoutOption = ReadTimeout | WriteTimeout

  /** Where each flag lives; the IPv6 flags use the crate's own option names. */
  function BoolKey(p: Platform, o: BoolOption): (k: Option<Key>)
    ensures k.None? <==> (o == OnlyV6 || o == MulticastLoopV6) && !Builds(p)
    ensures k.Some? && (o == OnlyV6 || o == MulticastLoopV6) ==> k.value.level == Libc(IpprotoIpv6)
    ensures o == Nodelay ==> k == Some(Key(Libc(IpprotoTcp), Libc(TcpNodelay)))
    ensures o == Broadcast ==> k == Some(Key(Libc(SolSocket), Libc(SoBroadcast)))
    ensures o == MulticastLoopV4 ==> k == Some(Key(Libc(IpprotoIp), Libc(IpMulticastLoop)))
    ensures o == ReuseAddress ==> k == Some(Key(Libc(SolSocket), Libc(SoReuseaddr)))
    ensures o == OnlyV6 && k.Some? ==> k.value.name == Crate(Ipv6V6Only(p).value)
    ensures o == MulticastLoopV6 && k.Some? ==> k.value.name == Crate(Ipv6MulticastLoop(p).value)
  {
    match o
    case Nodelay => Some(Key(Libc(IpprotoTcp), Libc(TcpNodelay)))
    case OnlyV6 =>
      if Ipv6V6Only(p).Some? then Some(Key(Libc(IpprotoIpv6), Crate(Ipv6V6Only(p).value))) else None
    case Broadcast => Some(Key(Libc(SolSocket), Libc(SoBroadcast)))
    case MulticastLoopV4 => Some(Key(Libc(IpprotoIp), Libc(IpMulticastLoop)))
    case MulticastLoopV6 =>
      if Ipv6MulticastLoop(p).Some? then Some(Key(Libc(IpprotoIpv6), Crate(Ipv6MulticastLoop(p).value))) else None
    case ReuseAddress => Some(Key(Libc(SolSocket), Libc(SoReuseaddr)))
  }

  /** No two flags share a (level, name) pair, so setting one never touches another. */
  lemma BoolKeysDistinct(p: Platform, o1: BoolOption, o2: BoolOption)
    requires BoolKey(p, o1).Some? && BoolKey(p, o2).Some? && o1 != o2
    ensures BoolKey(p, o1).value != BoolKey(p, o2).value
  {
    if o1 == OnlyV6 || o1 == MulticastLoopV6 {
      Ipv6NamesDistinct(p);
    }
  }

  /** `IP_TTL` and `IP_MULTICAST_TTL`, both at `IPPROTO_IP`. */
  function U32Key(o: U32Option): (k: Key)
    ensures k.level == Libc(IpprotoIp)
    ensures k.name == Libc(if o == Ttl then IpTtl else IpMulticastTtl)
  {
    match o
    case Ttl => Key(Libc(IpprotoIp), Libc(IpTtl))
    case MulticastTtlV4 => Key(Libc(IpprotoIp), Libc(IpMulticastTtl))
  }

  /** `SO_RCVTIMEO` and `SO_SNDTIMEO`, both at `SOL_SOCKET`. */
  function TimeoutKey(o: TimeoutOption): (k: Key)
    ensures k.level == Libc(SolSocket)
    ensures k.name == Libc(if o == ReadTimeout then SoRcvtimeo else SoSndtimeo)
  {
    match o
    case ReadTimeout => Key(Libc(SolSocket), Libc(SoRcvtimeo))
    case WriteTimeout => Key(Libc(SolSocket), Libc(SoSndtimeo))
  }

  /** The C type of a timeout: a `timeval` on Unix, a `DWORD` of milliseconds on Windows. */
  function TimeoutShape(p: Platform): Shape {
    if p.IsUnix() then TimevalShape else DwordShape
  }

  /** `ms2timeout(dur)` for the platform. */
  function TimeoutPayload(p: Platform, dur: Option<uint32>): (v: Payload)
    ensures v.ShapeOf() == TimeoutShape(p)
    ensures v == Zeroed(TimeoutShape(p)) <==> dur.None? || dur.value == 0
    ensures p.IsUnix() ==> AsTimeval(v) == UnixMs2Timeout(dur)
    ensures p.Windows? ==> AsDword(v) == WinMs2Timeout(dur)
  {
    if p.IsUnix() then TimevalValue(UnixMs2Timeout(dur)) else DwordValue(WinMs2Timeout(dur))
  }

  function SlotBool(slot: Payload): bool {
    Int2Bool(AsCInt(slot))
  }

  function SlotU32(slot: Payload): uint32 {
    CIntAsU32(AsCInt(slot))
  }

  function SlotTimevalMs(slot: Payload): Option<uint32> {
    UnixTimeout2Ms(AsTimeval(slot))
  }

  function SlotDwordMs(slot: Payload): Option<uint32> {
    WinTimeout2Ms(AsDword(slot))
  }

  function SlotError(slot: Payload): Option<IoError> {
    Int2Err(AsCInt(slot))
  }

  function OptMs2Dur(ms: Option<uint32>): Option<Duration> {
    ms.Map(Ms2Dur)
  }

  /** `d` is the millisecond outcome `ms` read as durations: the same failure,
      or the same reading with each count of milliseconds as that long a
      `Duration`. */
  predicate InMillis(d: Outcome<Option<Duration>>, ms: Outcome<Option<uint32>>) {
    && (d.Panicked? <==> ms.Panicked?)
    && (ms.Returned? && ms.result.Err? ==> d == Returned(Err(ms.result.error)))
    && (ms.Returned? && ms.result.Ok? ==>
          && d.Returned? && d.result.Ok?
          && (d.result.value.Some? <==> ms.result.value.Some?)
          && (d.result.value.Some? ==> DurationNanos(d.result.value.value) == ms.result.value.value * NANOS_PER_MILLI))
  }

  /** `set_nodelay`, `set_only_v6`, `set_broadcast`, `set_multicast_loop_v4`,
      `set_multicast_loop_v6` and the builders' `only_v6` and `reuse_address`:
      one `setsockopt` of a 4-byte 1 or 0. */
  function SetBoolStep(oracle: Oracle, h: seq<Call>, p: Platform, sock: RawSocket, o: BoolOption, on: bool)
    : (s: Step<IoResult<()>>)
    requires BoolKey(p, o).Some?
    ensures s.trace == h + [SetSockOpt(sock, BoolKey(p, o).value.level, BoolKey(p, o).value.name,
                                       CIntValue(if on then 1 else 0), 4)]
    ensures ReportsCvt(s.out, oracle(h, s.trace[|h|]))
  {
    var k := BoolKey(p, o).value;
    SetOptStep(oracle, h, sock, k.level, k.name, CIntValue(BoolAsCInt(on)))
  }

  /** `nodelay`, `only_v6`, `broadcast`, `multicast_loop_v4`, `multicast_loop_v6`:
      one `getsockopt` of a 4-byte `c_int`, true exactly when it is not zero. */
  function GetBoolStep(oracle: Oracle, h: seq<Call>, p: Platform, sock: RawSocket, o: BoolOption)
    : (s: Step<Outcome<bool>>)
    requires BoolKey(p, o).Some? && o.HasGetter()
    ensures s.trace == h + [GetSockOpt(sock, BoolKey(p, o).value.level, BoolKey(p, o).value.name, CIntShape, 4)]
    ensures FailsAs(s.out, oracle(h, s.trace[|h|]), 4)
    ensures s.out.Returned? && s.out.result.Ok? ==>
      (s.out.result.value <==> WrittenCInt(oracle(h, s.trace[|h|])) != 0)
  {
    var k := BoolKey(p, o).value;
    var g := GetOptStep(oracle, h, sock, k.level, k.name, CIntShape);
    Step(g.trace, MapOutcome(g.out, SlotBool))
  }

  /** `set_ttl`, `set_multicast_ttl_v4` and the builders' `ttl`: the `u32` is
      passed as the `c_int` with the same bits. */
  function SetU32Step(oracle: Oracle, h: seq<Call>, sock: RawSocket, o: U32Option, x: uint32)
    : (s: Step<IoResult<()>>)
    ensures |s.trace| == |h| + 1 && s.trace[..|h|] == h
    ensures var c := s.trace[|h|];
      && c.SetSockOpt? && c == SetSockOpt(sock, U32Key(o).level, U32Key(o).name, c.value, 4)
      && c.value.CIntValue? && CIntAsU32(c.value.i) == x
      && (x < 0x8000_0000 ==> c.value.i == x)
    ensures ReportsCvt(s.out, oracle(h, s.trace[|h|]))
  {
    CastRoundTrip(x, 0);
    SetOptStep(oracle, h, sock, U32Key(o).level, U32Key(o).name, CIntValue(U32AsCInt(x)))
  }

  /** `ttl`, `multicast_ttl_v4`: the `c_int` read back, reinterpreted as a `u32`. */
  function GetU32Step(oracle: Oracle, h: seq<Call>, sock: RawSocket, o: U32Option)
    : (s: Step<Outcome<uint32>>)
    ensures s.trace == h + [GetSockOpt(sock, U32Key(o).level, U32Key(o).name, CIntShape, 4)]
    ensures FailsAs(s.out, oracle(h, s.trace[|h|]), 4)
    ensures s.out.Returned? && s.out.result.Ok? ==>
      U32AsCInt(s.out.result.value) == WrittenCInt(oracle(h, s.trace[|h|]))
  {
    var g := GetOptStep(oracle, h, sock, U32Key(o).level, U32Key(o).name, CIntShape);
    Step(g.trace, MapOutcome(g.out, SlotU32))
  }

  /** `set_read_timeout_ms`, `set_write_timeout_ms`: one `setsockopt` of the
      platform's timeout type; no timeout and a zero timeout are both zero. */
  function SetTimeoutMsStep(oracle: Oracle, h: seq<Call>, p: Platform, sock: RawSocket, o: TimeoutOption, dur: Option<uint32>)
    : (s: Step<IoResult<()>>)
    ensures |s.trace| == |h| + 1 && s.trace[..|h|] == h
    ensures var c := s.trace[|h|];
      && c.SetSockOpt? && c == SetSockOpt(sock, Libc(SolSocket), TimeoutKey(o).name, c.value, SizeOf(TimeoutShape(p)))
      && c.value.ShapeOf() == TimeoutShape(p)
      && (c.value == Zeroed(TimeoutShape(p)) <==> dur.None? || dur.value == 0)
      && (p.IsUnix() ==> c.value == TimevalValue(UnixMs2Timeout(dur)))
      && (p.Windows? ==> c.value == DwordValue(WinMs2Timeout(dur)))
    ensures ReportsCvt(s.out, oracle(h, s.trace[|h|]))
  {
    SetOptStep(oracle, h, sock, TimeoutKey(o).level, TimeoutKey(o).name, TimeoutPayload(p, dur))
  }

  /** `read_timeout_ms`, `write_timeout_ms`: the buffer the kernel left, read
      through the platform's `timeout2ms`; no timeout exactly when it is zero. */
  function TimeoutMsStep(oracle: Oracle, h: seq<Call>, p: Platform, sock: RawSocket, o: TimeoutOption)
    : (s: Step<Outcome<Option<uint32>>>)
    ensures s.trace == h + [GetSockOpt(sock, Libc(SolSocket), TimeoutKey(o).name, TimeoutShape(p), SizeOf(TimeoutShape(p)))]
    ensures FailsAs(s.out, oracle(h, s.trace[|h|]), SizeOf(TimeoutShape(p)))
    ensures s.out.Returned? && s.out.result.Ok? ==>
      (s.out.result.value.None? <==>
         Overlay(Zeroed(TimeoutShape(p)), oracle(h, s.trace[|h|]).written) == Zeroed(TimeoutShape(p)))
    ensures var slot := Overlay(Zeroed(TimeoutShape(p)), oracle(h, s.trace[|h|]).written);
      s.out.Returned? && s.out.result.Ok? ==>
        s.out.result.value == if p.IsUnix() then UnixTimeout2Ms(AsTimeval(slot)) else WinTimeout2Ms(AsDword(slot))
  {
    var g := GetOptStep(oracle, h, sock, TimeoutKey(o).level, TimeoutKey(o).name, TimeoutShape(p));
    Step(g.trace, if p.IsUnix() then MapOutcome(g.out, SlotTimevalMs) else MapOutcome(g.out, SlotDwordMs))
  }

  /** `set_read_timeout`, `set_write_timeout` (nightly): the duration is handed
      on in whole milliseconds. */
  function SetTimeoutStep(oracle: Oracle, h: seq<Call>, p: Platform, sock: RawSocket, o: TimeoutOption, dur: Option<Duration>)
    : (s: Step<IoResult<()>>)
    ensures s == SetTimeoutMsStep(oracle, h, p, sock, o, if dur.Some? then Some(Dur2Ms(dur.value)) else None)
  {
    SetTimeoutMsStep(oracle, h, p, sock, o, dur.Map(Dur2Ms))
  }

  /** `read_timeout`, `write_timeout` (nightly): the millisecond reading as a
      `Duration`, always a whole number of milliseconds. */
  function TimeoutStep(oracle: Oracle, h: seq<Call>, p: Platform, sock: RawSocket, o: TimeoutOption)
    : (s: Step<Outcome<Option<Duration>>>)
    ensures var ms := TimeoutMsStep(oracle, h, p, sock, o);
      s.trace == ms.trace && InMillis(s.out, ms.out)
  {
    var ms := TimeoutMsStep(oracle, h, p, sock, o);
    Step(ms.trace, MapOutcome(ms.out, OptMs2Dur))
  }

  /** `take_error`: `SO_ERROR` read as a `c_int`; zero means no pending error,
      anything else is that OS error. */
  function TakeErrorStep(oracle: Oracle, h: seq<Call>, sock: RawSocket)
    : (s: Step<Outcome<Option<IoError>>>)
    ensures s.trace == h + [GetSockOpt(sock, Libc(SolSocket), Libc(SoError), CIntShape, 4)]
    ensures FailsAs(s.out, oracle(h, s.trace[|h|]), 4)
    ensures var n := WrittenCInt(oracle(h, s.trace[|h|]));
      s.out.Returned? && s.out.result.Ok? ==>
        (s.out.result.value.None? <==> n == 0) && (s.out.result.value.Some? ==> s.out.result.value.value == OsError(n))
  {
    var g := GetOptStep(oracle, h, sock, Libc(SolSocket), Libc(SoError), CIntShape);
    Step(g.trace, MapOutcome(g.out, SlotError))
  }

  /** `set_nonblocking`: `FIONBIO` with a 1 or 0 `c_ulong`, through `ioctl` on
      Unix and `ioctlsocket` on Windows. */
  function SetNonblockingStep(oracle: Oracle, h: seq<Call>, p: Platform, sock: RawSocket, nonblocking: bool)
    : (s: Step<IoResult<()>>)
    ensures p.IsUnix() ==> s.trace == h + [Ioctl(sock, FionbioRequest(p), Some(if nonblocking then 1 else 0))]
    ensures p.Windows? ==> s.trace == h + [IoctlSocket(sock, Libc(LibcName.Fionbio), if nonblocking then 1 else 0)]
    ensures ReportsCvt(s.out, oracle(h, s.trace[|h|]))
  {
    var flag: uint64 := if nonblocking then 1 else 0;
    var c := if p.IsUnix() then Ioctl(sock, FionbioRequest(p), Some(flag)) else IoctlSocket(sock, FionbioRequest(p), flag);
    Step(h + [c], Unit(Cvt(oracle(h, c))))
  }

  /** Joining or leaving a multicast group. */
  datatype Membership = Join | Leave

  /** `join_multicast_v4`, `leave_multicast_v4`: an `ip_mreq` holding the group
      and then the interface address, each in network byte order. */
  function MembershipV4Step(oracle: Oracle, h: seq<Call>, e: Endian, sock: RawSocket, m: Membership,
                            multiaddr: Ipv4Addr, iface: Ipv4Addr)
    : (s: Step<IoResult<()>>)
    ensures |s.trace| == |h| + 1 && s.trace[..|h|] == h
    ensures var c := s.trace[|h|];
      && c.SetSockOpt? && c == SetSockOpt(sock, Libc(IpprotoIp), Libc(if m == Join then IpAddMembership else IpDropMembership), c.value, 8)
      && c.value.IpMreq?
      && MemoryBytes32(e, c.value.imr_multiaddr.s_addr) == multiaddr.Octets()
      && MemoryBytes32(e, c.value.imr_interface.s_addr) == iface.Octets()
    ensures ReportsCvt(s.out, oracle(h, s.trace[|h|]))
  {
    var mreq := IpMreq(Ip2InAddr(e, multiaddr), Ip2InAddr(e, iface));
    SetOptStep(oracle, h, sock, Libc(IpprotoIp), Libc(if m == Join then IpAddMembership else IpDropMembership), mreq)
  }

  /** `join_multicast_v6`, `leave_multicast_v6`: an `ip6_mreq` holding the group
      in network byte order and the interface index as given. */
  function MembershipV6Step(oracle: Oracle, h: seq<Call>, e: Endian, sock: RawSocket, m: Membership,
                            multiaddr: Ipv6Addr, iface: uint32)
    : (s: Step<IoResult<()>>)
    ensures |s.trace| == |h| + 1 && s.trace[..|h|] == h
    ensures var c := s.trace[|h|];
      && c.SetSockOpt? && c == SetSockOpt(sock, Libc(IpprotoIpv6), Libc(if m == Join then Ipv6AddMembership else Ipv6DropMembership), c.value, 20)
      && c.value.Ip6Mreq?
      && WordsInMemory(e, c.value.ipv6mr_multiaddr.s6_addr) == WordsInNetworkOrder(multiaddr.segments)
      && c.value.ipv6mr_interface == iface
    ensures ReportsCvt(s.out, oracle(h, s.trace[|h|]))
  {
    var mreq := Ip6Mreq(Ip2In6Addr(e, multiaddr), iface);
    SetOptStep(oracle, h, sock, Libc(IpprotoIpv6), Libc(if m == Join then Ipv6AddMembership else Ipv6DropMembership), mreq)
  }

  // The methods: each issues its calls on the operating system and is proved
  // to do exactly what its step function above describes.

  method SetBool(os: Os, p: Platform, sock: RawSocket, o: BoolOption, on: bool) returns (r: IoResult<()>)
    requires BoolKey(p, o).Some?
    modifies os
    ensures Step(os.trace, r) == SetBoolStep(os.oracle, old(os.trace), p, sock, o, on)
  {
    var k := BoolKey(p, o).value;
    r := SetOpt(os, sock, k.level, k.name, CIntValue(BoolAsCInt(on)));
  }

  method GetBool(os: Os, p: Platform, sock: RawSocket, o: BoolOption) returns (r: Outcome<bool>)
    requires BoolKey(p, o).Some? && o.HasGetter()
    modifies os
    ensures Step(os.trace, r) == GetBoolStep(os.oracle, old(os.trace), p, sock, o)
  {
    var k := BoolKey(p, o).value;
    var slot := GetOpt(os, sock, k.level, k.name, CIntShape);
    r := MapOutcome(slot, SlotBool);
  }

  method SetU32(os: Os, sock: RawSocket, o: U32Option, x: uint32) returns (r: IoResult<()>)
    modifies os
    ensures Step(os.trace, r) == SetU32Step(os.oracle, old(os.trace), sock, o, x)
  {
    r := SetOpt(os, sock, U32Key(o).level, U32Key(o).name, CIntValue(U32AsCInt(x)));
  }

  method GetU32(os: Os, sock: RawSocket, o: U32Option) returns (r: Outcome<uint32>)
    modifies os
    ensures Step(os.trace, r) == GetU32Step(os.oracle, old(os.trace), sock, o)
  {
    var slot := GetOpt(os, sock, U32Key(o).level, U32Key(o).name, CIntShape);
    r := MapOutcome(slot, SlotU32);
  }

  method SetTimeoutMs(os: Os, p: Platform, sock: RawSocket, o: TimeoutOption, dur: Option<uint32>) returns (r: IoResult<()>)
    modifies os
    ensures Step(os.trace, r) == SetTimeoutMsStep(os.oracle, old(os.trace), p, sock, o, dur)
  {
    r := SetOpt(os, sock, TimeoutKey(o).level, TimeoutKey(o).name, TimeoutPayload(p, dur));
  }

  method TimeoutMs(os: Os, p: Platform, sock: RawSocket, o: TimeoutOption) returns (r: Outcome<Option<uint32>>)
    modifies os
    ensures Step(os.trace, r) == TimeoutMsStep(os.oracle, old(os.trace), p, sock, o)
  {
    var slot := GetOpt(os, sock, TimeoutKey(o).level, TimeoutKey(o).name, TimeoutShape(p));
    if p.IsUnix() {
      r := MapOutcome(slot, SlotTimevalMs);
    } else {
      r := MapOutcome(slot, SlotDwordMs);
    }
  }

  method SetTimeout(os: Os, p: Platform, sock: RawSocket, o: TimeoutOption, dur: Option<Duration>) returns (r: IoResult<()>)
    modifies os
    ensures Step(os.trace, r) == SetTimeoutStep(os.oracle, old(os.trace), p, sock, o, dur)
  {
    r := SetTimeoutMs(os, p, sock, o, dur.Map(Dur2Ms));
  }

  method Timeout(os: Os, p: Platform, sock: RawSocket, o: TimeoutOption) returns (r: Outcome<Option<Duration>>)
    modifies os
    ensures Step(os.trace, r) == TimeoutStep(os.oracle, old(os.trace), p, sock, o)
  {
    var ms := TimeoutMs(os, p, sock, o);
    r := MapOutcome(ms, OptMs2Dur);
  }

  method TakeError(os: Os, sock: RawSocket) returns (r: Outcome<Option<IoError>>)
    modifies os
    ensures Step(os.trace, r) == TakeErrorStep(os.oracle, old(os.trace), sock)
  {
    var slot := GetOpt(os, sock, Libc(SolSocket), Libc(SoError), CIntShape);
    r := MapOutcome(slot, SlotError);
  }

  method SetNonblocking(os: Os, p: Platform, sock: RawSocket, nonblocking: bool) returns (r: IoResult<()>)
    modifies os
    ensures Step(os.trace, r) == SetNonblockingStep(os.oracle, old(os.trace), p, sock, nonblocking)
  {
    var flag: uint64 := if nonblocking then 1 else 0;
    var rep;
    if p.IsUnix() {
      rep := os.Issue(Ioctl(sock, FionbioRequest(p), Some(flag)));
    } else {
      rep := os.Issue(IoctlSocket(sock, FionbioRequest(p), flag));
    }
    r := Unit(Cvt(rep));
  }

  method MembershipV4(os: Os, e: Endian, sock: RawSocket, m: Membership, multiaddr: Ipv4Addr, iface: Ipv4Addr)
    returns (r: IoResult<()>)
    modifies os
    ensures Step(os.trace, r) == MembershipV4Step(os.oracle, old(os.trace), e, sock, m, multiaddr, iface)
  {
    var mreq := IpMreq(Ip2InAddr(e, multiaddr), Ip2InAddr(e, iface));
    var name := if m == Join then IpAddMembership else IpDropMembership;
    r := SetOpt(os, sock, Libc(IpprotoIp), Libc(name), mreq);
  }

  method MembershipV6(os: Os, e: Endian, sock: RawSocket, m: Membership, multiaddr: Ipv6Addr, iface: uint32)
    returns (r: IoResult<()>)
    modifies os
    ensures Step(os.trace, r) == MembershipV6Step(os.oracle, old(os.trace), e, sock, m, multiaddr, iface)
  {
    var mreq := Ip6Mreq(Ip2In6Addr(e, multiaddr), iface);
    var name := if m == Join then Ipv6AddMembership else Ipv6DropMembership;
    r := SetOpt(os, sock, Libc(IpprotoIpv6), Libc(name), mreq);
  }

  // Round trips: on a kernel that reads back what was written, each getter
  // returns what its setter was given, up to the conversions on the way.

  lemma BoolRoundTrip(oracle: Oracle, h: seq<Call>, p: Platform, sock: RawSocket, o: BoolOption, on: bool)
    requires ActsAsStore(oracle) && BoolKey(p, o).Some? && o.HasGetter()
    ensures var wr := SetBoolStep(oracle, h, p, sock, o, on);
      wr.out == Ok(()) && GetBoolStep(oracle, wr.trace, p, sock, o).out == Returned(Ok(on))
  {
    var k := BoolKey(p, o).value;
    var wr := SetBoolStep(oracle, h, p, sock, o, on);
    var w := wr.trace[|h|];
    var get := GetSockOpt(sock, k.level, k.name, CIntShape, 4);
    assert IsWriteCall(w);
    LastWrittenAfterWrite(h, w, get);
  }

  lemma U32RoundTrip(oracle: Oracle, h: seq<Call>, sock: RawSocket, o: U32Option, x: uint32)
    requires ActsAsStore(oracle)
    ensures var wr := SetU32Step(oracle, h, sock, o, x);
      wr.out == Ok(()) && GetU32Step(oracle, wr.trace, sock, o).out == Returned(Ok(x))
  {
    var wr := SetU32Step(oracle, h, sock, o, x);
    var w := wr.trace[|h|];
    var get := GetSockOpt(sock, U32Key(o).level, U32Key(o).name, CIntShape, 4);
    assert IsWriteCall(w);
    LastWrittenAfterWrite(h, w, get);
    CastRoundTrip(x, 0);
  }

  /** On Windows the milliseconds come back unchanged (zero reads as none); on
      Unix only the whole seconds survive, because the sub-second part is
      stored in `tv_usec` as milliseconds and read back as microseconds. */
  lemma TimeoutMsRoundTrip(oracle: Oracle, h: seq<Call>, p: Platform, sock: RawSocket, o: TimeoutOption, dur: Option<uint32>)
    requires ActsAsStore(oracle)
    ensures var wr := SetTimeoutMsStep(oracle, h, p, sock, o, dur);
      && wr.out == Ok(())
      && TimeoutMsStep(oracle, wr.trace, p, sock, o).out ==
           Returned(Ok(if dur.None? || dur.value == 0 then None
                       else if p.IsUnix() then Some(dur.value / 1000 * 1000)
                       else dur))
  {
    var wr := SetTimeoutMsStep(oracle, h, p, sock, o, dur);
    var w := wr.trace[|h|];
    var get := GetSockOpt(sock, Libc(SolSocket), TimeoutKey(o).name, TimeoutShape(p), SizeOf(TimeoutShape(p)));
    assert IsWriteCall(w);
    LastWrittenAfterWrite(h, w, get);
    var g := GetOptStep(oracle, wr.trace, sock, Libc(SolSocket), TimeoutKey(o).name, TimeoutShape(p));
    assert g.out == Returned(Ok(TimeoutPayload(p, dur)));
  }

  /** The nightly `Duration` forms on Windows: a timeout whose `dur2ms` is not
      zero comes back as `ms2dur(dur2ms(d))`, truncated to whole milliseconds
      while those fit in a `u32`. */
  lemma WinTimeoutRoundTrip(oracle: Oracle, h: seq<Call>, sock: RawSocket, o: TimeoutOption, d: Duration)
    requires ActsAsStore(oracle)
    requires 0 < Dur2Ms(d)
    ensures var wr := SetTimeoutStep(oracle, h, Windows, sock, o, Some(d));
      && wr.out == Ok(())
      && TimeoutStep(oracle, wr.trace, Windows, sock, o).out == Returned(Ok(Some(Ms2Dur(Dur2Ms(d)))))
  {
    var wr := SetTimeoutStep(oracle, h, Windows, sock, o, Some(d));
    TimeoutMsRoundTrip(oracle, h, Windows, sock, o, Some(Dur2Ms(d)));
    var ms := TimeoutMsStep(oracle, wr.trace, Windows, sock, o);
    assert ms.out == Returned(Ok(Some(Dur2Ms(d))));
  }

  /** With the sub-second part stored as microseconds, as `timeout2ms` reads
      it, a Unix timeout would come back unchanged (zero reads as none). */
  lemma UnixTimeoutRoundTripCorrected(oracle: Oracle, h: seq<Call>, p: Platform, sock: RawSocket, o: TimeoutOption, dur: Option<uint32>)
    requires ActsAsStore(oracle) && p.IsUnix()
    ensures var wr := SetOptStep(oracle, h, sock, Libc(SolSocket), TimeoutKey(o).name, TimevalValue(UnixMs2TimeoutMicros(dur)));
      && wr.out == Ok(())
      && TimeoutMsStep(oracle, wr.trace, p, sock, o).out == Returned(Ok(if dur == Some(0) then None else dur))
  {
    var wr := SetOptStep(oracle, h, sock, Libc(SolSocket), TimeoutKey(o).name, TimevalValue(UnixMs2TimeoutMicros(dur)));
    var w := wr.trace[|h|];
    assert IsWriteCall(w);
    LastWrittenAfterWrite(h, w, GetSockOpt(sock, Libc(SolSocket), TimeoutKey(o).name, TimevalShape, 16));
  }
}

=== FILE: ints.dfy ===
/** Fixed-width integers shared by Rust and C, and the wrapping arithmetic
    and truncating `as` casts the option layer performs on them. */
module Ints {
  const TWO_32: int := 0x1_0000_0000

  type int32 = x: int | -0x8000_0000 <= x < 0x8000_0000
  type uint32 = x: int | 0 <= x < 0x1_0000_0000
  type int64 = x: int | -0x8000_0000_0000_0000 <= x < 0x8000_0000_0000_0000
  type uint64 = x: int | 0 <= x < 0x1_0000_0000_0000_0000
  type uint16 = x: int | 0 <= x < 0x1_0000

  /** Eight 16-bit words: the segments of an IPv6 address and the slots of `in6_addr`. */
  type Words8 = s: seq<bv16> | |s| == 8 witness [0, 0, 0, 0, 0, 0, 0, 0]

  /** `x as u32` from a wider integer type: the unique `u32` congruent to `x` modulo 2^32. */
  function TruncU32(x: int): (r: uint32)
    ensures (x - r) % TWO_32 == 0
    ensures 0 <= x < TWO_32 ==> r == x
  {
    TruncDiff(x);
    x % TWO_32
  }

  /** `a * b` on `u32` as a release build computes it (a debug build panics on overflow). */
  function WrappingMulU32(a: uint32, b: uint32): (r: uint32)
    ensures a * b < TWO_32 ==> r == a * b
    ensures (a * b - r) % TWO_32 == 0
  {
    TruncU32(a * b)
  }

  /** `a + b` on `u32` as a release build computes it. */
  function WrappingAddU32(a: uint32, b: uint32): (r: uint32)
    ensures a + b < TWO_32 ==> r == a + b
    ensures (a + b - r) % TWO_32 == 0
  {
    TruncU32(a + b)
  }

  lemma TruncDiff(x: int)
    ensures (x - x % TWO_32) % TWO_32 == 0
  {
    var q := x / TWO_32;
    assert x - x % TWO_32 == TWO_32 * q;
  }
}

=== FILE: keepalive.dfy ===
/** TCP keepalive (src/ext.rs:576-655). On Unix it is two options: the
    `SO_KEEPALIVE` flag, then the idle time under the platform's
    `KEEPALIVE_OPTION`, written only when keepalive is switched on and read
    only when the flag is set. On Windows it is one `WSAIoctl` with
    `SIO_KEEPALIVE_VALS` and a `tcp_keepalive` block. */
module Keepalive {
  import opened Ints
  import opened RustStd
  import opened CTypes
  import opened Kernel
  import opened Platforms
  import opened Convert
  import opened Codec
  import opened Facade

  /** The `tcp_keepalive` block `set_keepalive_ms` builds on Windows: on exactly
      when a time is given, and that time (or `INFINITE`) as both the idle
      time and the probe interval. */
  function WinKeepaliveVals(ka: Option<uint32>): (v: TcpKeepaliveVals)
    ensures v.onoff == if ka.Some? then 1 else 0
    ensures v.keepalivetime == v.keepaliveinterval == ka.UnwrapOr(INFINITE)
    ensures WinKeepaliveRead(v) == if ka == Some(0) then None else ka
  {
    var ms := ka.UnwrapOr(INFINITE);
    TcpKeepaliveVals(if ka.Some? then 1 else 0, ms, ms)
  }

  /** What `keepalive_ms` makes of a `tcp_keepalive` block on Windows: off, or
      the probe interval through `timeout2ms`, where zero also reads as off. */
  function WinKeepaliveRead(v: TcpKeepaliveVals): (r: Option<uint32>)
    ensures r.None? <==> v.onoff == 0 || v.keepaliveinterval == 0
    ensures r.Some? ==> r.value == v.keepaliveinterval
  {
    if v.onoff == 0 then None else WinTimeout2Ms(v.keepaliveinterval)
  }

  function SlotSomeU32(slot: Payload): Option<uint32> {
    Some(CIntAsU32(AsCInt(slot)))
  }

  /** A failed or panicked outcome carried over to another result type. */
  function Failure<T, U>(o: Outcome<T>): (r: Outcome<U>)
    requires o.Panicked? || o.result.Err?
    ensures r.Panicked? <==> o.Panicked?
    ensures o.Returned? ==> r == Returned(Err(o.result.error))
  {
    if o.Panicked? then Panicked else Returned(Err(o.result.error))
  }

  /** `set_keepalive_ms` on Unix. */
  function UnixSetKeepaliveMsStep(oracle: Oracle, h: seq<Call>, p: Platform, sock: RawSocket, ka: Option<uint32>)
    : (s: Step<IoResult<()>>)
    requires p.IsUnix()
    ensures |h| < |s.trace| <= |h| + 2 && s.trace[..|h|] == h
    ensures s.trace[|h|] == SetSockOpt(sock, Libc(SolSocket), Libc(SoKeepalive), CIntValue(if ka.Some? then 1 else 0), 4)
    ensures |s.trace| == |h| + 2 <==> ka.Some? && oracle(h, s.trace[|h|]).ret != -1
    ensures |s.trace| == |h| + 2 ==>
      s.trace[|h| + 1] == SetSockOpt(sock, Libc(IpprotoTcp), KeepaliveOption(p).value, CIntValue(U32AsCInt(ka.value)), 4)
    ensures ReportsCvt(s.out, oracle(s.trace[..|s.trace| - 1], s.trace[|s.trace| - 1]))
  {
    var first := SetOptStep(oracle, h, sock, Libc(SolSocket), Libc(SoKeepalive), CIntValue(BoolAsCInt(ka.Some?)));
    if first.out.Err? || ka.None? then
      assert first.trace[..|h|] == h;
      first
    else
      var second := SetOptStep(oracle, first.trace, sock, Libc(IpprotoTcp), KeepaliveOption(p).value,
                               CIntValue(U32AsCInt(ka.value)));
      assert second.trace[..|second.trace| - 1] == first.trace;
      assert second.trace[..|h|] == h;
      second
  }

  /** `keepalive_ms` on Unix. */
  function UnixKeepaliveMsStep(oracle: Oracle, h: seq<Call>, p: Platform, sock: RawSocket)
    : (s: Step<Outcome<Option<uint32>>>)
    requires p.IsUnix()
    ensures |h| < |s.trace| <= |h| + 2 && s.trace[..|h|] == h
    ensures s.trace[|h|] == GetSockOpt(sock, Libc(SolSocket), Libc(SoKeepalive), CIntShape, 4)
    ensures var rep := oracle(h, s.trace[|h|]);
      && (|s.trace| == |h| + 1 ==> FailsAs(s.out, rep, 4))
      && (|s.trace| == |h| + 2 <==> rep.ret != -1 && rep.len == 4 && WrittenCInt(rep) != 0)
      && (s.out == Returned(Ok(None)) <==> rep.ret != -1 && rep.len == 4 && WrittenCInt(rep) == 0)
    ensures |s.trace| == |h| + 2 ==>
      var rep := oracle(h + [s.trace[|h|]], s.trace[|h| + 1]);
      && s.trace[|h| + 1] == GetSockOpt(sock, Libc(IpprotoTcp), KeepaliveOption(p).value, CIntShape, 4)
      && FailsAs(s.out, rep, 4)
      && (s.out.Returned? && s.out.result.Ok? ==>
            s.out.result.value.Some? && U32AsCInt(s.out.result.value.value) == WrittenCInt(rep))
  {
    var flag := GetOptStep(oracle, h, sock, Libc(SolSocket), Libc(SoKeepalive), CIntShape);
    assert flag.trace[..|h|] == h;
    if flag.out.Panicked? || flag.out.result.Err? then
      Step(flag.trace, Failure(flag.out))
    else if AsCInt(flag.out.result.value) == 0 then
      Step(flag.trace, Returned(Ok(None)))
    else
      var idle := GetOptStep(oracle, flag.trace, sock, Libc(IpprotoTcp), KeepaliveOption(p).value, CIntShape);
      assert idle.trace[..|h|] == h;
      Step(idle.trace, MapOutcome(idle.out, SlotSomeU32))
  }

  /** `set_keepalive_ms` on Windows: one `WSAIoctl` with the block as input
      and no output buffer. */
  function WinSetKeepaliveMsStep(oracle: Oracle, h: seq<Call>, sock: RawSocket, ka: Option<uint32>)
    : (s: Step<IoResult<()>>)
    ensures s.trace == h + [WsaIoctl(sock, Crate(SIO_KEEPALIVE_VALS), Some(KeepaliveValue(WinKeepaliveVals(ka))), 12, 0)]
    ensures ReportsCvt(s.out, oracle(h, s.trace[|h|]))
  {
    var c := WsaIoctl(sock, Crate(SIO_KEEPALIVE_VALS), Some(KeepaliveValue(WinKeepaliveVals(ka))), 12, 0);
    Step(h + [c], Unit(Cvt(oracle(h, c))))
  }

  /** `keepalive_ms` on Windows: one `WSAIoctl` with no input and a zeroed
      block as output; the returned length is not checked. */
  function WinKeepaliveMsStep(oracle: Oracle, h: seq<Call>, sock: RawSocket)
    : (s: Step<Outcome<Option<uint32>>>)
    ensures s.trace == h + [WsaIoctl(sock, Crate(SIO_KEEPALIVE_VALS), None, 0, 12)]
    ensures var rep := oracle(h, s.trace[|h|]);
      var ka := AsKeepalive(Overlay(Zeroed(TcpKeepaliveShape), rep.written));
      && s.out.Returned?
      && (s.out.result.Err? <==> rep.ret == -1)
      && (s.out.result.Err? ==> s.out.result.error == OsError(rep.errno))
      && (s.out.result.Ok? ==>
            && (s.out.result.value.None? <==> ka.onoff == 0 || ka.keepaliveinterval == 0)
            && (s.out.result.value.Some? ==> s.out.result.value.value == ka.keepaliveinterval))
  {
    var c := WsaIoctl(sock, Crate(SIO_KEEPALIVE_VALS), None, 0, 12);
    var rep := oracle(h, c);
    var ka := AsKeepalive(Overlay(Zeroed(TcpKeepaliveShape), rep.written));
    Step(h + [c], if Cvt(rep).Err? then Returned(Err(Cvt(rep).error)) else Returned(Ok(WinKeepaliveRead(ka))))
  }

  /** `set_keepalive_ms` for the platform. */
  function SetKeepaliveMsStep(oracle: Oracle, h: seq<Call>, p: Platform, sock: RawSocket, ka: Option<uint32>)
    : (s: Step<IoResult<()>>)
    ensures |h| < |s.trace| <= |h| + 2 && s.trace[..|h|] == h
    ensures ka.None? || p.Windows? ==> |s.trace| == |h| + 1
    ensures IsWriteCall(s.trace[|h|])
    ensures ReportsCvt(s.out, oracle(s.trace[..|s.trace| - 1], s.trace[|s.trace| - 1]))
  {
    if p.IsUnix() then UnixSetKeepaliveMsStep(oracle, h, p, sock, ka) else WinSetKeepaliveMsStep(oracle, h, sock, ka)
  }

  /** `keepalive_ms` for the platform. */
  function KeepaliveMsStep(oracle: Oracle, h: seq<Call>, p: Platform, sock: RawSocket)
    : (s: Step<Outcome<Option<uint32>>>)
    ensures |h| < |s.trace| <= |h| + 2 && s.trace[..|h|] == h
    ensures forall i :: |h| <= i < |s.trace| ==> !IsWriteCall(s.trace[i])
    ensures p.Windows? ==> |s.trace| == |h| + 1 && s.out.Returned?
  {
    if p.IsUnix() then UnixKeepaliveMsStep(oracle, h, p, sock) else WinKeepaliveMsStep(oracle, h, sock)
  }

  /** `set_keepalive` (nightly): the duration is handed on in whole milliseconds. */
  function SetKeepaliveStep(oracle: Oracle, h: seq<Call>, p: Platform, sock: RawSocket, ka: Option<Duration>)
    : (s: Step<IoResult<()>>)
    ensures s == SetKeepaliveMsStep(oracle, h, p, sock, if ka.Some? then Some(Dur2Ms(ka.value)) else None)
  {
    SetKeepaliveMsStep(oracle, h, p, sock, ka.Map(Dur2Ms))
  }

  /** `keepalive` (nightly): the millisecond reading as a `Duration`. */
  function KeepaliveStep(oracle: Oracle, h: seq<Call>, p: Platform, sock: RawSocket)
    : (s: Step<Outcome<Option<Duration>>>)
    ensures var ms := KeepaliveMsStep(oracle, h, p, sock);
      s.trace == ms.trace && InMillis(s.out, ms.out)
  {
    var ms := KeepaliveMsStep(oracle, h, p, sock);
    Step(ms.trace, MapOutcome(ms.out, OptMs2Dur))
  }

  method UnixSetKeepaliveMs(os: Os, p: Platform, sock: RawSocket, ka: Option<uint32>) returns (r: IoResult<()>)
    requires p.IsUnix()
    modifies os
    ensures Step(os.trace, r) == UnixSetKeepaliveMsStep(os.oracle, old(os.trace), p, sock, ka)
  {
    r := SetOpt(os, sock, Libc(SolSocket), Libc(SoKeepalive), CIntValue(BoolAsCInt(ka.Some?)));
    if r.Err? {
      return;
    }
    if ka.Some? {
      r := SetOpt(os, sock, Libc(IpprotoTcp), KeepaliveOption(p).value, CIntValue(U32AsCInt(ka.value)));
    }
  }

  method UnixKeepaliveMs(os: Os, p: Platform, sock: RawSocket) returns (r: Outcome<Option<uint32>>)
    requires p.IsUnix()
    modifies os
    ensures Step(os.trace, r) == UnixKeepaliveMsStep(os.oracle, old(os.trace), p, sock)
  {
    var flag := GetOpt(os, sock, Libc(SolSocket), Libc(SoKeepalive), CIntShape);
    if flag.Panicked? || flag.result.Err? {
      return Failure(flag);
    }
    if AsCInt(flag.result.value) == 0 {
      return Returned(Ok(None));
    }
    var idle := GetOpt(os, sock, Libc(IpprotoTcp), KeepaliveOption(p).value, CIntShape);
    r := MapOutcome(idle, SlotSomeU32);
  }

  method WinSetKeepaliveMs(os: Os, sock: RawSocket, ka: Option<uint32>) returns (r: IoResult<()>)
    modifies os
    ensures Step(os.trace, r) == WinSetKeepaliveMsStep(os.oracle, old(os.trace), sock, ka)
  {
    var vals := WinKeepaliveVals(ka);
    var rep := os.Issue(WsaIoctl(sock, Crate(SIO_KEEPALIVE_VALS), Some(KeepaliveValue(vals)), SizeOf(TcpKeepaliveShape), 0));
    r := Unit(Cvt(rep));
  }

  method WinKeepaliveMs(os: Os, sock: RawSocket) returns (r: Outcome<Option<uint32>>)
    modifies os
    ensures Step(os.trace, r) == WinKeepaliveMsStep(os.oracle, old(os.trace), sock)
  {
    var ka := Zeroed(TcpKeepaliveShape);
    var rep := os.Issue(WsaIoctl(sock, Crate(SIO_KEEPALIVE_VALS), None, 0, SizeOf(TcpKeepaliveShape)));
    ka := Overlay(ka, rep.written);
    var ret := Cvt(rep);
    if ret.Err? {
      return Returned(Err(ret.error));
    }
    r := Returned(Ok(WinKeepaliveRead(AsKeepalive(ka))));
  }

  method SetKeepaliveMs(os: Os, p: Platform, sock: RawSocket, ka: Option<uint32>) returns (r: IoResult<()>)
    modifies os
    ensures Step(os.trace, r) == SetKeepaliveMsStep(os.oracle, old(os.trace), p, sock, ka)
  {
    if p.IsUnix() {
      r := UnixSetKeepaliveMs(os, p, sock, ka);
    } else {
      r := WinSetKeepaliveMs(os, sock, ka);
    }
  }

  method KeepaliveMs(os: Os, p: Platform, sock: RawSocket) returns (r: Outcome<Option<uint32>>)
    modifies os
    ensures Step(os.trace, r) == KeepaliveMsStep(os.oracle, old(os.trace), p, sock)
  {
    if p.IsUnix() {
      r := UnixKeepaliveMs(os, p, sock);
    } else {
      r := WinKeepaliveMs(os, sock);
    }
  }

  method SetKeepalive(os: Os, p: Platform, sock: RawSocket, ka: Option<Duration>) returns (r: IoResult<()>)
    modifies os
    ensures Step(os.trace, r) == SetKeepaliveStep(os.oracle, old(os.trace), p, sock, ka)
  {
    r := SetKeepaliveMs(os, p, sock, ka.Map(Dur2Ms));
  }

  method KeepaliveDuration(os: Os, p: Platform, sock: RawSocket) returns (r: Outcome<Option<Duration>>)
    modifies os
    ensures Step(os.trace, r) == KeepaliveStep(os.oracle, old(os.trace), p, sock)
  {
    var ms := KeepaliveMs(os, p, sock);
    r := MapOutcome(ms, OptMs2Dur);
  }

  /** On Unix the idle time set is the idle time read, and off reads as off. */
  lemma UnixKeepaliveRoundTrip(oracle: Oracle, h: seq<Call>, p: Platform, sock: RawSocket, ka: Option<uint32>)
    requires ActsAsStore(oracle) && p.IsUnix()
    ensures var wr := UnixSetKeepaliveMsStep(oracle, h, p, sock, ka);
      wr.out == Ok(()) && UnixKeepaliveMsStep(oracle, wr.trace, p, sock).out == Returned(Ok(ka))
  {
    var wr := UnixSetKeepaliveMsStep(oracle, h, p, sock, ka);
    var w1 := wr.trace[|h|];
    assert IsWriteCall(w1);
    var flag := GetSockOpt(sock, Libc(SolSocket), Libc(SoKeepalive), CIntShape, 4);
    LastWrittenAfterWrite(h, w1, flag);
    if ka.None? {
      assert wr.trace == h + [w1];
    } else {
      var w2 := wr.trace[|h| + 1];
      assert IsWriteCall(w2);
      assert wr.trace == (h + [w1]) + [w2];
      LastWrittenSkips(h + [w1], w2, flag);
      var idle := GetSockOpt(sock, Libc(IpprotoTcp), KeepaliveOption(p).value, CIntShape, 4);
      LastWrittenAfterWrite(h + [w1], w2, idle);
      LastWrittenSkips(wr.trace, flag, idle);
      CastRoundTrip(ka.value, 0);
    }
  }

  /** On Windows the time set is the time read, except that a zero time reads as off. */
  lemma WinKeepaliveRoundTrip(oracle: Oracle, h: seq<Call>, sock: RawSocket, ka: Option<uint32>)
    requires ActsAsStore(oracle)
    ensures var wr := WinSetKeepaliveMsStep(oracle, h, sock, ka);
      && wr.out == Ok(())
      && WinKeepaliveMsStep(oracle, wr.trace, sock).out == Returned(Ok(if ka == Some(0) then None else ka))
  {
    var wr := WinSetKeepaliveMsStep(oracle, h, sock, ka);
    var w := wr.trace[|h|];
    assert IsWriteCall(w);
    LastWrittenAfterWrite(h, w, WsaIoctl(sock, Crate(SIO_KEEPALIVE_VALS), None, 0, 12));
  }

  /** The idle time, in milliseconds, that the kernel applies when
      `TCP_KEEPIDLE` (Linux, the BSDs) or `TCP_KEEPALIVE` (Apple) holds `n`:
      both options count whole seconds. */
  function KernelIdleMillis(n: CInt): int {
    n * 1000
  }

  /** A request of 5000 ms hands the kernel the option value 5000, which it
      applies as an idle time of 5000 seconds. */
  lemma UnixKeepaliveUnitMismatch(oracle: Oracle, h: seq<Call>, p: Platform, sock: RawSocket)
    requires p.IsUnix()
    requires oracle(h, SetSockOpt(sock, Libc(SolSocket), Libc(SoKeepalive), CIntValue(1), 4)).ret != -1
    ensures var s := UnixSetKeepaliveMsStep(oracle, h, p, sock, Some(5000));
      && |s.trace| == |h| + 2 && s.trace[|h| + 1].value == CIntValue(5000)
      && KernelIdleMillis(s.trace[|h| + 1].value.i) == 5_000_000
  {
  }

  /** Whole seconds read back as milliseconds, in wrapping `u32` arithmetic. */
  function SecsToMs(secs: Option<uint32>): (ms: Option<uint32>)
    ensures ms.Some? <==> secs.Some?
    ensures secs.Some? && secs.value * 1000 < TWO_32 ==> ms.value == secs.value * 1000
  {
    secs.Map(n => WrappingMulU32(n, 1000))
  }

  /** `set_keepalive_ms` on Unix as its documentation describes it: the idle
      time goes to the kernel in whole seconds, so sub-second milliseconds
      are dropped and the kernel idles for the request rounded down to a second. */
  function UnixSetKeepaliveSecsStep(oracle: Oracle, h: seq<Call>, p: Platform, sock: RawSocket, ka: Option<uint32>)
    : (s: Step<IoResult<()>>)
    requires p.IsUnix()
    ensures |h| < |s.trace| <= |h| + 2 && s.trace[..|h|] == h
    ensures s.trace[|h|] == SetSockOpt(sock, Libc(SolSocket), Libc(SoKeepalive), CIntValue(if ka.Some? then 1 else 0), 4)
    ensures |s.trace| == |h| + 2 <==> ka.Some? && oracle(h, s.trace[|h|]).ret != -1
    ensures |s.trace| == |h| + 2 ==>
      && s.trace[|h| + 1] == SetSockOpt(sock, Libc(IpprotoTcp), KeepaliveOption(p).value, CIntValue(ka.value / 1000), 4)
      && 0 <= ka.value - KernelIdleMillis(s.trace[|h| + 1].value.i) < 1000
    ensures ReportsCvt(s.out, oracle(s.trace[..|s.trace| - 1], s.trace[|s.trace| - 1]))
  {
    UnixSetKeepaliveMsStep(oracle, h, p, sock, if ka.Some? then Some(ka.value / 1000) else None)
  }

  /** `keepalive_ms` on Unix as documented: the seconds the kernel holds,
      returned as milliseconds. */
  function UnixKeepaliveSecsStep(oracle: Oracle, h: seq<Call>, p: Platform, sock: RawSocket)
    : (s: Step<Outcome<Option<uint32>>>)
    requires p.IsUnix()
    ensures var secs := UnixKeepaliveMsStep(oracle, h, p, sock);
      && s.trace == secs.trace
      && (s.out.Panicked? <==> secs.out.Panicked?)
      && (secs.out.Returned? && secs.out.result.Err? ==> s.out == secs.out)
      && (secs.out.Returned? && secs.out.result.Ok? ==>
            && s.out.Returned? && s.out.result.Ok?
            && (s.out.result.value.None? <==> secs.out.result.value.None?)
            && (secs.out.result.value.Some? && secs.out.result.value.value < 4_294_967 ==>
                  s.out.result.value.value == secs.out.result.value.value * 1000))
  {
    var secs := UnixKeepaliveMsStep(oracle, h, p, sock);
    Step(secs.trace, MapOutcome(secs.out, SecsToMs))
  }

  /** With the documented units, the idle time set reads back rounded down to
      whole seconds, and off reads as off. */
  lemma UnixKeepaliveSecsRoundTrip(oracle: Oracle, h: seq<Call>, p: Platform, sock: RawSocket, ka: Option<uint32>)
    requires ActsAsStore(oracle) && p.IsUnix()
    ensures var wr := UnixSetKeepaliveSecsStep(oracle, h, p, sock, ka);
      && wr.out == Ok(())
      && UnixKeepaliveSecsStep(oracle, wr.trace, p, sock).out
           == Returned(Ok(if ka.Some? then Some(ka.value / 1000 * 1000) else None))
  {
    var secs: Option<uint32> := if ka.Some? then Some(ka.value / 1000) else None;
    UnixKeepaliveRoundTrip(oracle, h, p, sock, secs);
  }
}

=== FILE: kernel.dfy ===
/** The operating system as the option layer sees it: every system call the
    layer makes is appended to a trace, and its reply is whatever an oracle
    answers for that call after that history. Nothing is assumed about the
    oracle: in particular a get need not return what an earlier set wrote. */
module Kernel {
  import opened Ints
  import opened RustStd
  import opened CTypes

  /** A socket descriptor: a `c_int` on Unix, a `SOCKET` on Windows. */
  type RawSocket = int

  datatype Call =
    | SetSockOpt(sock: RawSocket, level: Const, name: Const, value: Payload, len: uint32)
    | GetSockOpt(sock: RawSocket, level: Const, name: Const, shape: Shape, len: uint32)
    | Ioctl(fd: RawSocket, request: Const, arg: Option<uint64>)
    | IoctlSocket(sock: RawSocket, request: Const, argp: uint32)
    | WsaIoctl(sock: RawSocket, code: Const, input: Option<Payload>, inLen: uint32, outLen: uint32)
    | OpenSocket(family: CInt, ty: CInt, protocol: CInt)
    | Close(fd: RawSocket)
    | Connect(sock: RawSocket, addr: SocketAddr)

  /** A call that hands an option value to the kernel. */
  predicate IsWriteCall(c: Call) {
    c.SetSockOpt? || (c.WsaIoctl? && c.input.Some?)
  }

  /** What a system call hands back: its return value, the error code it left
      behind, the length it reported, and what it wrote into an output buffer. */
  datatype Reply = Reply(ret: CInt, errno: CInt, len: uint32, written: Option<Payload>)

  /** The kernel's answer to a call after a given history of calls. */
  type Oracle = (seq<Call>, Call) -> Reply

  class Os {
    var trace: seq<Call>
    const oracle: Oracle

    constructor (oracle: Oracle)
      ensures this.oracle == oracle && trace == []
    {
      this.oracle := oracle;
      trace := [];
    }

    /** Issue one system call. */
    method Issue(c: Call) returns (r: Reply)
      modifies this
      ensures trace == old(trace) + [c]
      ensures r == oracle(old(trace), c)
    {
      r := oracle(trace, c);
      trace := trace + [c];
    }
  }

  /** `::cvt`: a return value of -1 is a failure carrying the call's OS error code. */
  function Cvt(rep: Reply): (r: IoResult<int>)
    ensures r.Ok? <==> rep.ret != -1
    ensures r.Ok? ==> r.value == rep.ret
    ensures r.Err? ==> r.error == OsError(rep.errno)
  {
    if rep.ret == -1 then Err(OsError(rep.errno)) else Ok(rep.ret)
  }

  /** `w` stores a value that the later read `r` of the same option returns:
      a `setsockopt` for a `getsockopt` of the same socket, level, name and
      C type, or a `WSAIoctl` with an input buffer for one with an output
      buffer and the same socket and control code. */
  predicate Overwrites(w: Call, r: Call) {
    || (w.SetSockOpt? && r.GetSockOpt? && w.sock == r.sock && w.level == r.level
        && w.name == r.name && w.value.ShapeOf() == r.shape)
    || (w.WsaIoctl? && r.WsaIoctl? && w.input.Some? && r.input.None?
        && w.sock == r.sock && w.code == r.code)
  }

  /** The value the last write in `h` that `r` reads back stored, if any. */
  function LastWritten(h: seq<Call>, r: Call): (v: Option<Payload>)
    ensures v.Some? <==> exists i :: 0 <= i < |h| && Overwrites(h[i], r)
  {
    if h == [] then None
    else
      var w := h[|h| - 1];
      if Overwrites(w, r) then Some(if w.SetSockOpt? then w.value else w.input.value)
      else
        var v := LastWritten(h[..|h| - 1], r);
        assert forall i :: 0 <= i < |h| - 1 ==> h[..|h| - 1][i] == h[i];
        v
  }

  /** The reference kernel of the round-trip lemmas: every write succeeds, and
      a read of an option that was written succeeds, reports the full length
      and returns what the last write stored. */
  ghost predicate ActsAsStore(oracle: Oracle) {
    && (forall h: seq<Call>, c: Call :: IsWriteCall(c) ==> oracle(h, c).ret != -1)
    && (forall h: seq<Call>, r: Call :: LastWritten(h, r).Some? ==>
          && oracle(h, r).ret != -1
          && oracle(h, r).written == LastWritten(h, r)
          && (r.GetSockOpt? ==> oracle(h, r).len == r.len))
  }

  /** A kernel that answers every call from what was last written. */
  function StoreReply(h: seq<Call>, c: Call): Reply {
    Reply(0, 0, if c.GetSockOpt? then c.len else 0, LastWritten(h, c))
  }

  /** Such a kernel exists, so `ActsAsStore` is no vacuous assumption. */
  lemma StoreReplyActsAsStore()
    ensures ActsAsStore(StoreReply)
  {
  }

  /** A write the read sees is the last one that counts. */
  lemma LastWrittenAfterWrite(h: seq<Call>, w: Call, r: Call)
    requires Overwrites(w, r)
    ensures LastWritten(h + [w], r) == Some(if w.SetSockOpt? then w.value else w.input.value)
  {
  }

  /** A call the read does not see leaves what it reads unchanged. */
  lemma LastWrittenSkips(h: seq<Call>, c: Call, r: Call)
    requires !Overwrites(c, r)
    ensures LastWritten(h + [c], r) == LastWritten(h, r)
  {
    assert (h + [c])[..|h|] == h;
  }
}

=== FILE: platforms.dfy ===
/** The per-platform constant tables that conditional compilation selects
    (src/ext.rs:32-53, src/ext.rs:557-564, src/sys/unix/mod.rs:17-23), as
    functions of the target platform. A constant the source leaves undefined
    on a platform is `None` there: the crate does not build for that target. */
module Platforms {
  import opened Ints
  import opened RustStd
  import opened CTypes

  /** The `target_os` values the tables distinguish; `OtherUnix` is every other Unix. */
  datatype Platform = Linux | Android | MacOS | IOS | FreeBSD | DragonFly | OtherUnix | Windows {
    predicate IsUnix() {
      !Windows?
    }

    predicate IsApple() {
      this == MacOS || this == IOS
    }

    predicate IsLinuxLike() {
      this == Linux || this == Android
    }
  }

  /** The crate's own `IPV6_MULTICAST_LOOP` option name. */
  function Ipv6MulticastLoop(p: Platform): (r: Option<CInt>)
    ensures r.Some? <==> p != Android && p != OtherUnix
  {
    match p
    case Linux => Some(19)
    case MacOS | IOS | FreeBSD | DragonFly | Windows => Some(11)
    case Android | OtherUnix => None
  }

  /** The crate's own `IPV6_V6ONLY` option name (section 5.3 of RFC 3493). */
  function Ipv6V6Only(p: Platform): (r: Option<CInt>)
    ensures r.Some? <==> p != Android && p != OtherUnix
  {
    match p
    case Linux => Some(26)
    case MacOS | IOS | Windows | FreeBSD | DragonFly => Some(27)
    case Android | OtherUnix => None
  }

  /** The request code that switches non-blocking mode: the crate's own
      number on Unix, the `libc` name on Windows. */
  function FionbioRequest(p: Platform): (r: Const)
    ensures r.Crate? <==> p.IsUnix()
    ensures r.Crate? ==> r.value == if p.IsLinuxLike() then 0x5421 else 0x8004667e
    ensures p.Windows? ==> r == Libc(LibcName.Fionbio)
  {
    if p.Windows? then Libc(LibcName.Fionbio)
    else if p.IsLinuxLike() then Crate(0x5421)
    else Crate(0x8004667e)
  }

  /** `KEEPALIVE_OPTION`, the TCP-level name of the keepalive idle time; Windows has none. */
  function KeepaliveOption(p: Platform): (r: Option<Const>)
    ensures r.Some? <==> p.IsUnix()
    ensures r.Some? ==> r.value == Libc(if p.IsApple() then LibcName.TcpKeepalive else TcpKeepidle)
  {
    if p.IsApple() then Some(Libc(LibcName.TcpKeepalive))
    else if p.IsUnix() then Some(Libc(TcpKeepidle))
    else None
  }

  /** The close-on-exec request code `FIOCLEX` of the Unix handle. */
  function Fioclex(p: Platform): (r: Const)
    requires p.IsUnix()
    ensures r == Crate(if p.IsLinuxLike() then 0x5451 else 0x20006601)
  {
    if p.IsLinuxLike() then Crate(0x5451) else Crate(0x20006601)
  }

  /** `SIO_KEEPALIVE_VALS`, the Windows keepalive control code. */
  const SIO_KEEPALIVE_VALS: int := 0x9800_0004

  /** `libc::INFINITE` on Windows. */
  const INFINITE: uint32 := 0xFFFF_FFFF

  /** The crate builds for exactly the platforms on which both IPv6 option names are defined. */
  predicate Builds(p: Platform) {
    Ipv6MulticastLoop(p).Some? && Ipv6V6Only(p).Some? && (p.IsUnix() ==> KeepaliveOption(p).Some?)
  }

  /** Where both crate-defined IPPROTO_IPV6 names exist they differ, so the two
      options can never be confused for one another. */
  lemma Ipv6NamesDistinct(p: Platform)
    requires Builds(p)
    ensures Ipv6MulticastLoop(p).value != Ipv6V6Only(p).value
    ensures p == Linux ==> Ipv6V6Only(p).value == 26 && Ipv6MulticastLoop(p).value == 19
    ensures p != Linux ==> Ipv6V6Only(p).value == 27 && Ipv6MulticastLoop(p).value == 11
  {
  }
}

=== FILE: rust_std.dfy ===
/** The values of Rust's standard library that the option layer receives and returns. */
module RustStd {
  import opened Ints

  datatype Option<T> = None | Some(value: T) {
    /** `Option::unwrap_or` */
    function UnwrapOr(default: T): T {
      if Some? then value else default
    }

    /** `Option::map` */
    function Map<U>(f: T -> U): (r: Option<U>)
      ensures r.Some? <==> Some?
      ensures Some? ==> r.value == f(value)
    {
      if Some? then Some(f(value)) else None
    }
  }

  /** `io::ErrorKind`: only the kind this layer builds itself. */
  datatype ErrorKind = Other

  /** `io::Error`: a raw OS error code, or a custom error built by the library. */
  datatype IoError =
    | OsError(code: int)
    | Custom(kind: ErrorKind, message: string)

  /** `io::Result<T>` */
  datatype IoResult<T> = Ok(value: T) | Err(error: IoError)

  /** How a call that may hit a failed `assert_eq!` completes: it either returns
      an `io::Result`, or it panics and the thread unwinds. */
  datatype Outcome<T> = Returned(result: IoResult<T>) | Panicked

  /** `.map(f)` on the `io::Result` inside an outcome; a panic stays a panic. */
  function MapOutcome<T, U>(o: Outcome<T>, f: T -> U): (r: Outcome<U>)
    ensures r.Panicked? <==> o.Panicked?
    ensures o.Returned? && o.result.Err? ==> r == Returned(Err(o.result.error))
    ensures o.Returned? && o.result.Ok? ==> r == Returned(Ok(f(o.result.value)))
  {
    match o
    case Panicked => Panicked
    case Returned(Err(e)) => Returned(Err(e))
    case Returned(Ok(v)) => Returned(Ok(f(v)))
  }

  const NANOS_PER_SEC: int := 1_000_000_000
  const NANOS_PER_MILLI: int := 1_000_000

  type Nanos = n: int | 0 <= n < NANOS_PER_SEC

  /** `std::time::Duration`, as `as_secs()` and `subsec_nanos()` expose it. */
  datatype Duration = Duration(secs: uint64, nanos: Nanos)

  /** The length of a duration in nanoseconds. */
  function DurationNanos(d: Duration): int {
    d.secs * NANOS_PER_SEC + d.nanos
  }

  /** `std::net::Ipv4Addr`, by its four octets. */
  datatype Ipv4Addr = Ipv4Addr(a: bv8, b: bv8, c: bv8, d: bv8) {
    /** `Ipv4Addr::octets`, most significant first. */
    function Octets(): seq<bv8> {
      [a, b, c, d]
    }
  }

  /** `std::net::Ipv6Addr`, by its eight 16-bit segments. */
  datatype Ipv6Addr = Ipv6Addr(segments: Words8)

  /** A resolved socket address, as `ToSocketAddrs` yields it. */
  datatype SocketAddr =
    | V4(ip: Ipv4Addr, port: uint16)
    | V6(ip6: Ipv6Addr, port6: uint16)
}

=== FILE: sys_unix.dfy ===
/** The Unix socket handle of src/sys/unix/mod.rs: a `Socket` owns one file
    descriptor, which leaves it either by being moved out (`into_fd` and the
    conversions built on it, which `mem::forget` the handle) or by being
    closed when the handle is dropped. */
module SysUnix {
  import opened RustStd
  import opened CTypes
  import opened Kernel
  import opened Platforms

  /** Where a handle's descriptor is: still owned, moved out, or closed. */
  datatype Ownership = Owning | Released | Closed

  /** The two ways a handle's life ends: `mem::forget` (inside `into_fd`) or `Drop`. */
  datatype Event = ForgetEv | DropEv

  /** The ownership after one more event; `None` where Rust's move rules make
      the event impossible, because the handle is already gone. */
  function Next(s: Ownership, e: Event): (t: Option<Ownership>)
    ensures t.Some? <==> s == Owning
    ensures t.Some? ==> (t.value == Closed <==> e == DropEv) && (t.value == Released <==> e == ForgetEv)
  {
    if s != Owning then None
    else
      match e
      case DropEv => Some(Closed)
      case ForgetEv => Some(Released)
  }

  /** The ownership after a sequence of events, if the sequence is possible. */
  function Run(s: Ownership, es: seq<Event>): Option<Ownership>
    decreases |es|
  {
    if es == [] then Some(s)
    else
      match Next(s, es[0])
      case None => None
      case Some(t) => Run(t, es[1..])
  }

  function Count(es: seq<Event>, e: Event): nat {
    if es == [] then 0 else (if es[0] == e then 1 else 0) + Count(es[1..], e)
  }

  /** Over any possible lifetime the descriptor is closed at most once, is
      never both moved out and closed, and is closed exactly when the handle
      ended in `Closed`, moved out exactly when it ended in `Released`. */
  lemma {:induction false} LifetimeEndsOnce(s: Ownership, es: seq<Event>)
    requires Run(s, es).Some?
    decreases |es|
    ensures s != Owning ==> es == []
    ensures Run(s, es) == Some(Owning) ==> es == []
    ensures s == Owning ==> Count(es, DropEv) + Count(es, ForgetEv) <= 1
    ensures s == Owning ==> (Run(s, es) == Some(Closed) <==> Count(es, DropEv) == 1)
    ensures s == Owning ==> (Run(s, es) == Some(Released) <==> Count(es, ForgetEv) == 1)
  {
    if es != [] {
      var t := Next(s, es[0]).value;
      LifetimeEndsOnce(t, es[1..]);
      assert es[1..] == [];
    }
  }

  /** The standard library type a descriptor is handed to. */
  datatype StdKind = TcpListenerKind | TcpStreamKind | UdpSocketKind

  /** A `TcpListener`, `TcpStream` or `UdpSocket` built by `from_raw_fd`, the new owner of `fd`. */
  datatype StdSocket = StdSocket(kind: StdKind, fd: CInt)

  class Socket {
    const os: Os
    var fd: CInt
    ghost var state: Ownership
    ghost var history: seq<Event>

    /** The handle's state is the one its history of events leads to. */
    ghost predicate Valid()
      reads this
    {
      Run(Owning, history) == Some(state)
    }

    /** `FromInner::from_inner`: wrap a descriptor, with no system call; the
        handle now owns it. */
    constructor FromInner(os: Os, fd: CInt)
      ensures this.os == os && this.fd == fd
      ensures state == Owning && history == [] && Valid()
    {
      this.os := os;
      this.fd := fd;
      state := Owning;
      history := [];
    }

    /** `Socket::new`: `socket(family, ty, 0)`; on failure its OS error and
        nothing owned, otherwise `FIOCLEX` on the new descriptor, whose result
        is ignored, and a handle that owns that descriptor. */
    static method New(os: Os, p: Platform, family: CInt, ty: CInt) returns (r: IoResult<Socket>)
      requires p.IsUnix()
      modifies os
      ensures var rep := os.oracle(old(os.trace), OpenSocket(family, ty, 0));
        && (rep.ret == -1 ==>
              r == Err(OsError(rep.errno)) && os.trace == old(os.trace) + [OpenSocket(family, ty, 0)])
        && (rep.ret != -1 ==>
              && r.Ok? && fresh(r.value)
              && r.value.os == os && r.value.fd == rep.ret
              && r.value.state == Owning && r.value.history == [] && r.value.Valid()
              && os.trace == old(os.trace) + [OpenSocket(family, ty, 0), Ioctl(rep.ret, Fioclex(p), None)])
    {
      var rep := os.Issue(OpenSocket(family, ty, 0));
      var created := Cvt(rep);
      if created.Err? {
        return Err(created.error);
      }
      var ignored := os.Issue(Ioctl(rep.ret, Fioclex(p), None));
      var s := new Socket.FromInner(os, rep.ret);
      return Ok(s);
    }

    /** `raw`: the owned descriptor; ownership is untouched. */
    method Raw() returns (r: CInt)
      requires Valid() && state == Owning
      ensures r == fd
    {
      r := fd;
    }

    /** `mem::forget(self)`: the handle ends without closing its descriptor. */
    method Forget()
      requires Valid() && state == Owning
      modifies this
      ensures fd == old(fd) && state == Released && history == old(history) + [ForgetEv] && Valid()
    {
      LifetimeEndsOnce(Owning, history);
      state := Released;
      history := history + [ForgetEv];
    }

    /** `into_fd`: the descriptor moves out and this handle will never close it. */
    method IntoFd() returns (r: CInt)
      requires Valid() && state == Owning
      modifies this
      ensures r == old(fd) && fd == old(fd)
      ensures state == Released && history == old(history) + [ForgetEv] && Valid()
    {
      r := fd;
      Forget();
    }

    /** `into_tcp_listener`, `into_tcp_stream`, `into_udp_socket`: the
        descriptor passes to exactly one new standard library owner. */
    method IntoTcpListener() returns (l: StdSocket)
      requires Valid() && state == Owning
      modifies this
      ensures l == StdSocket(TcpListenerKind, old(fd))
      ensures state == Released && history == old(history) + [ForgetEv] && Valid()
    {
      var raw := IntoFd();
      l := StdSocket(TcpListenerKind, raw);
    }

    method IntoTcpStream() returns (t: StdSocket)
      requires Valid() && state == Owning
      modifies this
      ensures t == StdSocket(TcpStreamKind, old(fd))
      ensures state == Released && history == old(history) + [ForgetEv] && Valid()
    {
      var raw := IntoFd();
      t := StdSocket(TcpStreamKind, raw);
    }

    method IntoUdpSocket() returns (u: StdSocket)
      requires Valid() && state == Owning
      modifies this
      ensures u == StdSocket(UdpSocketKind, old(fd))
      ensures state == Released && history == old(history) + [ForgetEv] && Valid()
    {
      var raw := IntoFd();
      u := StdSocket(UdpSocketKind, raw);
    }

    /** `Drop::drop`: exactly one `close` of the owned descriptor, its result discarded. */
    method Drop()
      requires Valid() && state == Owning
      modifies this, os
      ensures os.trace == old(os.trace) + [Close(fd)] && fd == old(fd)
      ensures state == Closed && history == old(history) + [DropEv] && Valid()
    {
      var ignored := os.Issue(Close(fd));
      LifetimeEndsOnce(Owning, history);
      state := Closed;
      history := history + [DropEv];
    }
  }
}
